=== FILE: README.md ===
# Media inventory: metadata lookup and backup/restore, modelled in Dafny

This project models the two parts of the media inventory web application that hold real decision logic.

**The barcode lookup `api_lookup` in `routes.py`.** A barcode is first cleaned to an ISBN. It then goes through three metadata providers in turn:

1. Google Books;
2. Open Library, as a fallback for text or cover;
3. Discogs, only with an access token and only when nothing else matched.

The answers are merged into one `LookupResult` record. The model treats each provider's reply as an already-parsed optional record (`None` covers a failed request, a non-200 status and an empty result list). The lookup becomes a pure three-stage pipeline that also reports which providers it asked. The helpers it relies on are modelled too: ISBN cleaning, the `http://` to `https://` upgrade, the two year extractions, the "artist - title" split, the `Genres:` description, and the upload filter `allowed_file`.

**`create_backup_zip` and `restore_backup_zip` in `backup_utils.py`.** The file system is a map from path to bytes, and a zip archive is the sequence of its entries (name, bytes) in write order. The model covers:

- how the SQLite URI is turned into a database path, and how create and restore each resolve a relative one;
- the archive names (`database.sqlite`, `uploads/<relpath>`) and the backup file name;
- the mandatory-entry check;
- the staging folder `<instance>/temp_restore`, cleared before and after the database is unpacked into it;
- the two `shutil.move` calls that keep a `.bak` copy;
- the flattening of `uploads/` members into the upload folder.

Files:

- `wrappers.dfy`: `Option` and `Result`.
- `strings.dfy` (module `Strings`): the Python string operations used. These are substring search, left-to-right `replace`, `join`, `strip`, `split(sep, 1)` and ASCII lower-casing.
- `paths.dfy` (module `Paths`): the `posixpath` subset used. These are `isabs`, `join`, `basename` and `relpath` below a directory.
- `lookup.dfy` (module `Lookup`): `LookupResult`, the three provider stages and the pipeline `ApiLookup`.
- `uploads.dfy` (module `UploadNames`): `allowed_file`.
- `backup.dfy` (module `Backup`): database location, `CreateBackup` and `RestoreBackup`.

Inputs the code reads from outside are parameters:

- the provider replies (a `Providers` value of three functions);
- the Discogs token (an empty string when unset);
- the application configuration (`Config`);
- the timestamp;
- the order in which `os.walk` lists the upload folder (`walk`).

## Model

| member | source | states |
|---|---|---|
| Lookup.CleanIsbn | routes.py:112 | the cleaned ISBN is no longer than the barcode and holds only digits and `X`/`x` |
| Lookup.CleanIsbnSingle | routes.py:112 | a single character is kept exactly when it is an ASCII digit or `X`/`x`, and dropped otherwise |
| Lookup.CleanIsbnCounts | routes.py:112 | every character keeps its exact number of occurrences if it is a digit or `X`/`x`, and every other character disappears |
| Lookup.CleanIsbnDistributes | routes.py:112 | cleaning a concatenation cleans each part and concatenates the results, so the order of the kept characters is preserved |
| Lookup.CleanIsbnFixedPoints | routes.py:112 | a string is left unchanged by cleaning if and only if it already consists of ISBN characters only |
| Lookup.CleanIsbnIdempotent | routes.py:112 | cleaning twice gives the same result as cleaning once |
| Lookup.UpgradeToHttps | routes.py:137-138 | a URL starting with `http://` becomes `https://` followed by the rest of the URL with every further `http://` replaced too, so a rest without `http://` is kept unchanged; any other URL is returned unchanged; a non-empty URL stays non-empty |
| Lookup.UpgradeToHttpsIsComplete | routes.py:137-138 | after the upgrade of an `http://` URL, no `http://` occurs anywhere in the result |
| Lookup.ReplaceAllRemovesHttp | routes.py:138 | replacing every `http://` by `https://` leaves no `http://` occurrence at any index |
| Lookup.ApplyGoogleBooks | routes.py:120-139 | a miss changes nothing; a hit sets `success`, the title and the joined authors, a description that is the prefix of exactly `min(800, length)` characters, the first 4 characters of a date of length at least 4 as year (else the year is unchanged), and `thumbnail` before `smallThumbnail`, upgraded to https, as image; `success` never drops |
| Lookup.FindFourDigits | routes.py:159 | finds the first index at or after `from` where four ASCII digits start, and reports none exactly when there is no such index |
| Lookup.SearchYear | routes.py:159-160 | `re.search(r'\d{4}')`: none if and only if no run of four digits occurs; otherwise four digits that occur in the date with no earlier run before them |
| Lookup.ApplyOpenLibrary | routes.py:151-165 | a miss changes nothing; a hit sets `success`, writes title, authors and first four-digit year only when stage 1 failed, and lets a non-empty cover (`large` before `medium`) replace the image; the description is never touched |
| Lookup.SplitArtistTitle | routes.py:197-203 | no split if and only if `" - "` is absent; otherwise the title is artist + `" - "` + rest, with no `" - "` inside the artist part, and the result is both parts stripped |
| Lookup.SplitArtistWithoutDash | routes.py:198-201 | an artist without `-` is split off exactly at the separator that follows it |
| Lookup.ApplyDiscogs | routes.py:188-210 | a miss changes nothing; a hit sets `success`, the year, a description `Genres: ` + genres and styles joined, author and title as the stripped parts around the first `" - "` (else the whole title, author unchanged), and `cover_image` before `thumb` as image |
| Lookup.ApiLookup | routes.py:100-218 | Google Books is always asked first, with the cleaned ISBN; at most three queries are made; an unsuccessful reply is exactly the initial all-empty record |
| Lookup.LookupSucceedsIff | routes.py:126-195 | `success` holds if and only if Google Books or Open Library knows the ISBN, or a token is set and Discogs knows the barcode |
| Lookup.OpenLibraryQueriedIff | routes.py:146 | Open Library is asked if and only if Google Books had no hit or its hit carried no image |
| Lookup.DiscogsQueriedIff | routes.py:176 | Discogs is asked if and only if a token is set and neither Google Books nor Open Library had a hit |
| Lookup.GoogleHitWithImageShortCircuits | routes.py:136-146 | a Google Books hit with an image ends the lookup: only one query is made and the reply is stage 1's record |
| Lookup.NoHitYieldsEmpty | routes.py:103-110 | if no provider has an answer, the reply is the initial record: `success` false and every string empty |
| Lookup.GoogleTextWithOpenLibraryCover | routes.py:146-165 | a Google Books hit without an image keeps all its text fields and takes Open Library's cover when there is one |
| Lookup.ShapeWithoutDiscogs | routes.py:129-160 | without a Discogs stage, the description is at most 800 characters and the year is empty or 4 characters long |
| Lookup.DiscogsResultShape | routes.py:195-210 | a Discogs hit yields `success` and a description starting with `Genres: `; a title without `" - "` becomes the title, and the author stays empty |
| Lookup.DiscogsAlone | routes.py:176-210 | when both book providers miss and a token is set, the reply is the Discogs stage applied to the initial record |
| Lookup.PinkFloydExample | routes.py:197-210 | the release "Pink Floyd - The Wall" (1979, genre Rock) gives author "Pink Floyd", title "The Wall", year "1979" and description "Genres: Rock" |
| Lookup.PinkFloydSplit | routes.py:197-201 | "Pink Floyd - The Wall" splits into ("Pink Floyd", "The Wall") |
| Strings.ReplaceAll | routes.py:138 | `str.replace`: a string in which the pattern does not occur comes back unchanged |
| Strings.ReplaceAllAtStart | routes.py:138 | a string starting with the pattern becomes the replacement followed by the replaced rest |
| Strings.ReplaceAllAtFirst | routes.py:138 | at the first occurrence `i` of the pattern, the result is the text before `i` unchanged, then the replacement, then the replaced text after the occurrence; with the unchanged case this fixes the result for every string |
| Strings.Take | routes.py:129 | `s[:n]`: a prefix of `s` of length `n`, or all of `s` when it is shorter |
| Strings.JoinWith | routes.py:128 | `sep.join(parts)`: empty for no parts, the part itself for one; otherwise it starts with the first part followed by `sep` and ends with the last part |
| Strings.JoinWithConcat | routes.py:128 | joining two non-empty lists of parts is joining each and putting `sep` between them, so every part appears in order with `sep` between neighbours |
| Strings.Strip | routes.py:200-201 | `str.strip()`: the result is a slice of the input with no leading or trailing whitespace; everything cut off is whitespace |
| Strings.SplitOnce | routes.py:199 | `split(sep, 1)`: none if and only if `sep` does not occur; otherwise `s == a + sep + b`, with `a` free of `sep` |
| UploadNames.Extension | routes.py:42 | `rsplit('.', 1)[1]`: none if and only if there is no dot; otherwise a dot-free suffix such that the name is stem + "." + extension |
| UploadNames.AllowedFile | routes.py:40-42 | `allowed_file`: an accepted name has a dot, and its extension has three or four characters |
| UploadNames.AllowedFileIff | routes.py:40-42 | a name is accepted if and only if it has a dot and the lower-cased text after its last dot is `png`, `jpg`, `jpeg` or `gif` |
| UploadNames.AllowedFileByExtension | routes.py:40-42 | stem + "." + a dot-free extension is accepted if and only if the lower-cased extension is an image extension, whatever the stem |
| UploadNames.AllowedFileExamples | routes.py:40-42 | `"a."`, `"png"` and `"cover.png.exe"` are rejected; `"cover.JPG"`, `"archive.tar.gif"` and `".png"` are accepted |
| Paths.Basename | backup_utils.py:132 | `os.path.basename`: a slash-free suffix of the path that follows its last `/` |
| Paths.BasenameAfterSlash | backup_utils.py:132 | the basename of a directory ending in `/` followed by a slash-free name is that name |
| Paths.RelPathJoin | backup_utils.py:62 | the relative path of a file below a folder is non-empty and not absolute, and joining it back onto the folder gives the file |
| Paths.RelPathInjective | backup_utils.py:62 | different files below a folder have different relative paths |
| Backup.DatabaseFileName | backup_utils.py:22-26 | without `///` the name is `inventory.db`; otherwise it is the text after the first `///`, up to the next `///` or the end |
| Backup.DatabaseFileNameOfSqliteUri | backup_utils.py:22-23 | `sqlite:///` + a path without `///` yields that path |
| Backup.AbsoluteDatabaseUri | backup_utils.py:15-23 | `sqlite:////app/instance/inventory.db` yields the absolute path `/app/instance/inventory.db` |
| Backup.CreateDatabasePath | backup_utils.py:29-35 | an absolute name is used as is; a relative one resolves into the instance folder when the file is there, and into the application root otherwise, present or not |
| Backup.RestoreDatabasePath | backup_utils.py:85-91 | an absolute name is used as is; a relative one resolves into the root only when it is missing from the instance folder and present in the root, and into the instance folder otherwise |
| Backup.ResolutionsAgree | backup_utils.py:29-91 | whenever create finds its database, restore writes to that same file |
| Backup.ResolutionsDiverge | backup_utils.py:29-91 | for a relative name found in neither folder, create looks in the root but restore writes to the instance folder |
| Backup.BackupFileNameRoundTrip | backup_utils.py:43-44 | the timestamp can be read back out of `backup_inventory_<timestamp>.zip` |
| Backup.ArcNameIsJoin | backup_utils.py:62 | an upload's archive name is `os.path.join('uploads', relpath)` |
| Backup.UploadEntries | backup_utils.py:57-63 | one entry per walked file, in walk order, named by its archive name and holding its contents |
| Backup.ArchiveOf | backup_utils.py:52-63 | the first entry is `database.sqlite` with the database bytes; entry k+1 is walked file k under its archive name |
| Backup.CreateBackup | backup_utils.py:16-65 | a non-SQLite URI fails first; a missing database fails with its path; otherwise the backup is named after the timestamp, its path is in the instance folder and it holds that archive; the archive is returned as a value rather than written to that path |
| Backup.ArchiveHasEveryUpload | backup_utils.py:57-63 | every file below the upload folder is in the archive under `uploads/` + its relative path, with its bytes |
| Backup.ArchiveHasOnlyUploads | backup_utils.py:57-63 | every entry after the database starts with `uploads/` and belongs to a file below the upload folder |
| Backup.ArchiveNamesDistinct | backup_utils.py:54-62 | `database.sqlite` comes first and no two entries share a name |
| Backup.ArcNameNotDatabase | backup_utils.py:54-62 | no upload is archived as `database.sqlite` |
| Backup.LastIndex | backup_utils.py:135 | a lookup by name reaches an entry with that name that no later entry shares; none if and only if the name is missing |
| Backup.LastIndexOfDistinct | backup_utils.py:135 | in an archive without repeated names, a lookup reaches the entry itself |
| Backup.StagedDatabase | backup_utils.py:107-115 | the database entry is unpacked to a file below `<instance>/temp_restore` whose path relative to that folder is exactly `database.sqlite` |
| Backup.RemoveTree | backup_utils.py:108-109 | `shutil.rmtree`: every file below the folder is gone and every other file keeps its state |
| Backup.Move | backup_utils.py:119-121 | `shutil.move` of a file: the destination takes the source's bytes, the source disappears, nothing else changes |
| Backup.InstallDatabase | backup_utils.py:112-121 | the install fails exactly when the target is the staged file itself, and then the target is gone and `.bak` holds the archived bytes; otherwise the target holds the archived bytes and an existing target's old bytes move to `.bak`, while without an existing target a `.bak` left from earlier keeps its state; files other than those three keep their state and none but the staged file disappears |
| Backup.UploadTarget | backup_utils.py:130-136 | a member has a target exactly when its name starts with `uploads/` and its basename is non-empty |
| Backup.ExtractUploads | backup_utils.py:129-138 | the upload loop never removes a file |
| Backup.ExtractUploadsUntouched | backup_utils.py:129-138 | a file that no member targets keeps its state |
| Backup.ExtractUploadsLastWins | backup_utils.py:129-138 | a file targeted by several members ends up with the bytes of the last of them |
| Backup.RestoreBackup | backup_utils.py:73-143 | a non-SQLite URI or an archive without `database.sqlite` fails and leaves the file system unchanged; the restore succeeds exactly when neither applies and the database is not the staged file itself; no file outside the staging folder is removed; after a success the staging folder is empty |
| Backup.RestoreInstallsDatabase | backup_utils.py:107-121 | when no `uploads/` member is extracted onto the database or its `.bak`: for a database outside the staging folder the restore succeeds, the database file holds the archived `database.sqlite`, and a previous database sits at `.bak` when that lies outside the staging folder too |
| Backup.RestoreExtractsUploads | backup_utils.py:129-141 | after a successful restore, each `uploads/` member with a basename lands as upload folder + basename, with the bytes its name reads back, unless that file is in the staging folder; the last member with that target wins |
| Backup.RestoreKeepsOtherFiles | backup_utils.py:107-141 | outside the staging folder, every file other than the database, the upload targets and, when a database existed, its `.bak` copy keeps its state (so a `.bak` left from earlier survives a restore onto a missing database); after a success, nothing in the staging folder remains |
| Backup.FlatUploadTarget | backup_utils.py:62-136 | a file lying directly in the upload folder is extracted back onto itself |
| Backup.BackupRestoreRoundTrip | backup_utils.py:54-141 | restoring a backup on the file system it was taken from succeeds exactly when the database is not the staged file, loses no file outside the staging folder, and gives the database and, for a flat upload folder, every upload its own bytes under its own name, wherever they lie outside the staging folder |

## Notes on the code

- **Restore moves rather than copies.** Both the live database and the staged file are moved with `shutil.move` (backup_utils.py:119, 121). `Backup.InstallDatabase` models the moves, so the old bytes exist only under `.bak` afterwards.
- **Year shape.** Google Books contributes the first four characters of `publishedDate`, whatever they are (routes.py:132). Discogs contributes its year field as given (routes.py:205). `Lookup.ShapeWithoutDiscogs` proves the year is empty or four characters long when Discogs is not asked.
- **Author without a separator.** A Discogs title without `" - "` leaves the author unchanged (routes.py:202-203). Stage 3 runs only after every earlier stage failed, when the record is still the initial one, so the author is then empty. `Lookup.DiscogsResultShape` proves this.
- **A database inside the staging folder.** Take a database path that resolves to `<instance>/temp_restore/database.sqlite`. The first `rmtree` deletes the live database (backup_utils.py:108-109). The entry is then unpacked onto that same path (backup_utils.py:112). The first `shutil.move` sends these archived bytes to `.bak`, and the second `shutil.move` fails because its source is gone (backup_utils.py:118-121). The old database is lost, no database file remains, and `.bak` holds the archive's copy; `Backup.InstallDatabase` states this. Any other database below `<instance>/temp_restore` is installed and then deleted by the final `rmtree` (backup_utils.py:141).

## Left out

- **Network and logging.** HTTP requests, JSON decoding, timeouts, the Discogs 401 branch and the `print` logging are not modelled. The 401 branch (routes.py:211-212) only logs. A provider's reply is an already-parsed optional record. An exception in the middle of a stage after `success` was set (e.g. non-string authors at routes.py:128) is not modelled.
- **Rest of the web application.** These are not modelled:
  - Flask routing, templates, sessions and the SQLAlchemy CRUD routes (routes.py:221-516);
  - `get_config_value`/`set_config_value`, since the token is an input string and an unset token is `""`;
  - `qrcode_image`, `save_image`, `download_remote_image` and `generate_inventory_number`, which depend on randomness, the clock and the network;
  - `app.py` and `extensions.py`, which hold configuration and library singletons only.
- **Zip and runtime details.** Zip compression, the database session teardown (backup_utils.py:96-97) and the clock are not modelled. Directories are implicit in the map's paths, so the `makedirs` calls for the instance, staging and upload folders (backup_utils.py:47-49, 110, 126-127) have no counterpart.
- **Walk order.** The order of `os.walk` is left open: `walk` is any listing of the files below the upload folder, each file once.
- **Path forms.** Paths are assumed to be in normal form, with `/` as separator: no `.` or `..` components and no repeated `/`. `relpath` is modelled only for files below the folder, which are the only ones `os.walk` yields.
- **Discogs year.** It is a string. The integer the Discogs API returns is not distinguished.
- Backup.CreateBackup: the zip is returned as a value together with its path `<instance>/backup_inventory_<timestamp>.zip`; writing it there (backup_utils.py:52) is not modelled, so the file system after a backup is the one before it. `os.path.exists` is modelled as "a file with this path exists". The code also says yes for a directory: a URI such as `sqlite:///`, whose name is empty, resolves to the instance folder itself, which the code finds and tries to archive, while the model reports `DatabaseNotFound`. For an empty `UPLOAD_FOLDER` the code's `os.path.exists("")` is false and no upload is archived, while the model archives every file the walk lists.
- Backup.RestoreBackup: directories are not modelled, so the errors they cause are not either. These are a database path naming a directory (`shutil.move` of a folder), a file standing where the staging or upload folder should be (`rmtree` or `makedirs` raising), and an empty `UPLOAD_FOLDER`, where the code's `makedirs("")` raises after the database is installed. In each of these the model goes on and reports `Restored`.
- Lookup.CleanIsbn: keeps only the ASCII digits `0`-`9` and `X`/`x`. Python's `str.isdigit` also accepts other Unicode digits, and `upper()` maps a few non-ASCII characters in other ways.
- Lookup.SearchYear: `\d` is taken as the ASCII digits only. Python's `re` also matches other Unicode decimal digits.
- UploadNames.AllowedFileIff: the lower-casing is ASCII only. Python's `str.lower` also folds non-ASCII letters, and those are left as they are.

=== FILE: backup.dfy ===
/** `create_backup_zip` and `restore_backup_zip`: the SQLite database file
    and the upload folder packed into one archive, and unpacked again.

    The file system is a map from path to contents (directories are implicit
    in the paths), and an archive is the list of its entries in order. The
    clock, the zip encoding and the database connection handling are left
    out. */
module Backup {
  import opened Wrappers
  import opened Strings
  import opened Paths

  newtype Byte = b: int | 0 <= b < 256
  type Bytes = seq<Byte>
  type FileSystem = map<string, Bytes>

  /** The application settings both operations read. */
  datatype Config = Config(
    databaseUri: string,
    instancePath: string,
    rootPath: string,
    uploadFolder: string)

  datatype Entry = Entry(name: string, data: Bytes)
  type Archive = seq<Entry>

  /** The exceptions the two operations raise. */
  datatype BackupError =
    | UnsupportedDatabase
    | DatabaseNotFound(path: string)
    | MissingDatabaseEntry
    | StagedDatabaseMissing

  /** What `create_backup_zip` returns, with the archive it wrote. */
  datatype BackupFile = BackupFile(path: string, filename: string, archive: Archive)

  datatype Status = Restored | Failed(error: BackupError)

  /** The file system after a restore, and how the restore ended. */
  datatype Effect = Effect(fs: FileSystem, status: Status)

  const DatabaseEntry := "database.sqlite"
  const UploadsDir := "uploads"
  const UploadsPrefix := "uploads/"
  const DefaultDatabaseFile := "inventory.db"
  const UriSeparator := "///"
  const BackupPrefix := "backup_inventory_"
  const BackupSuffix := ".zip"
  const BakSuffix := ".bak"
  const StagingFolder := "temp_restore"

  /** `k` is in the same state in both file systems. */
  predicate Same(fs: FileSystem, fs': FileSystem, k: string) {
    (k in fs <==> k in fs') && (k in fs ==> fs[k] == fs'[k])
  }

  // ---------------------------------------------------------------------
  // Locating the database file
  // ---------------------------------------------------------------------

  /** Only SQLite URIs are supported by either operation. */
  predicate IsSqlite(uri: string) {
    Contains(uri, "sqlite")
  }

  /** `uri.split('///')[1]` when the URI contains `///`, else the default
      file name: the text after the first `///` up to the next one. */
  function DatabaseFileName(uri: string): (name: string)
    ensures !Contains(uri, UriSeparator) ==> name == DefaultDatabaseFile
    ensures Contains(uri, UriSeparator) ==> var rest := SplitOnce(uri, UriSeparator).value.1;
      && StartsWith(rest, name)
      && !Contains(name, UriSeparator)
      && (forall j :: 0 <= j < |name| ==> !OccursAt(rest, j, UriSeparator))
      && (name == rest || OccursAt(rest, |name|, UriSeparator))
  {
    match SplitOnce(uri, UriSeparator)
    case None => DefaultDatabaseFile
    case Some((_, rest)) =>
      match SplitOnce(rest, UriSeparator)
      case None => rest
      case Some((field, tail)) =>
        assert rest == field + UriSeparator + tail;
        assert rest[|field|..|field| + 3] == UriSeparator;
        field
  }

  /** A URI written as `sqlite:///` followed by a path yields that path,
      provided the path itself holds no `///`. */
  lemma DatabaseFileNameOfSqliteUri(path: string)
    requires !Contains(path, UriSeparator)
    ensures DatabaseFileName("sqlite:///" + path) == path
  {
    var uri := "sqlite:///" + path;
    assert uri == "sqlite:" + UriSeparator + path;
    forall j | 0 <= j < 7 ensures !OccursAt(uri, j, UriSeparator) {
      assert uri[j..j + 3][0] == uri[j] != '/';
    }
    assert OccursAt(uri, 7, UriSeparator);
    FindIsFirst(uri, UriSeparator, 7);
    assert uri[10..] == path;
  }

  /** The URI the application configures, with an absolute path after
      `sqlite:///`, names that absolute path. */
  lemma AbsoluteDatabaseUri()
    ensures DatabaseFileName("sqlite:////app/instance/inventory.db") == "/app/instance/inventory.db"
  {
    var path := "/app/instance/inventory.db";
    assert "sqlite:////app/instance/inventory.db" == "sqlite:///" + path;
    forall j: nat ensures !OccursAt(path, j, UriSeparator) {
      if j + 3 <= |path| {
        assert path[j..j + 3][1] == path[j + 1] != '/' || path[j..j + 3][2] == path[j + 2] != '/';
      }
    }
    DatabaseFileNameOfSqliteUri(path);
  }

  /** The database path `create_backup_zip` uses: a relative name is looked
      up in the instance folder and otherwise taken from the application
      root, whether or not it exists there. */
  function CreateDatabasePath(fs: FileSystem, cfg: Config): (path: string)
    ensures var name := DatabaseFileName(cfg.databaseUri);
      && (IsAbs(name) ==> path == name)
      && (!IsAbs(name) ==> path == Join(cfg.instancePath, name) || path == Join(cfg.rootPath, name))
      && (!IsAbs(name) && Join(cfg.instancePath, name) in fs ==> path == Join(cfg.instancePath, name))
      && (!IsAbs(name) && Join(cfg.instancePath, name) !in fs ==> path == Join(cfg.rootPath, name))
  {
    var name := DatabaseFileName(cfg.databaseUri);
    if IsAbs(name) then name
    else if Join(cfg.instancePath, name) in fs then Join(cfg.instancePath, name)
    else Join(cfg.rootPath, name)
  }

  /** The database path `restore_backup_zip` writes: a relative name goes
      to the application root only when it is missing from the instance
      folder and present in the root. */
  function RestoreDatabasePath(fs: FileSystem, cfg: Config): (path: string)
    ensures var name := DatabaseFileName(cfg.databaseUri);
      && (IsAbs(name) ==> path == name)
      && (!IsAbs(name) ==> path == Join(cfg.instancePath, name) || path == Join(cfg.rootPath, name))
      && (!IsAbs(name) && path != Join(cfg.instancePath, name) ==>
            Join(cfg.instancePath, name) !in fs && Join(cfg.rootPath, name) in fs)
      && (!IsAbs(name) && Join(cfg.instancePath, name) !in fs && Join(cfg.rootPath, name) in fs ==>
            path == Join(cfg.rootPath, name))
  {
    var name := DatabaseFileName(cfg.databaseUri);
    if IsAbs(name) then name
    else
      var inInstance := Join(cfg.instancePath, name);
      var inRoot := Join(cfg.rootPath, name);
      if inInstance !in fs && inRoot in fs then inRoot else inInstance
  }

  /** Whenever a backup can find its database, a restore on the same file
      system writes to that very file. */
  lemma ResolutionsAgree(fs: FileSystem, cfg: Config)
    ensures CreateDatabasePath(fs, cfg) in fs ==>
      RestoreDatabasePath(fs, cfg) == CreateDatabasePath(fs, cfg)
  {
  }

  /** The two rules part ways when the database is in neither folder: the
      backup looks in the root (and fails), the restore writes to the
      instance folder. */
  lemma ResolutionsDiverge(fs: FileSystem, cfg: Config)
    requires !IsAbs(DatabaseFileName(cfg.databaseUri))
    requires Join(cfg.instancePath, DatabaseFileName(cfg.databaseUri)) !in fs
    requires Join(cfg.rootPath, DatabaseFileName(cfg.databaseUri)) !in fs
    ensures CreateDatabasePath(fs, cfg) == Join(cfg.rootPath, DatabaseFileName(cfg.databaseUri))
    ensures RestoreDatabasePath(fs, cfg) == Join(cfg.instancePath, DatabaseFileName(cfg.databaseUri))
  {
  }

  // ---------------------------------------------------------------------
  // create_backup_zip
  // ---------------------------------------------------------------------

  /** `backup_inventory_<timestamp>.zip`. */
  function BackupFileName(timestamp: string): string {
    BackupPrefix + timestamp + BackupSuffix
  }

  /** Reads the timestamp back out of a backup file name. */
  function TimestampOf(filename: string): Option<string> {
    if |filename| >= |BackupPrefix| + |BackupSuffix|
       && StartsWith(filename, BackupPrefix) && EndsWith(filename, BackupSuffix)
    then Some(filename[|BackupPrefix|..|filename| - |BackupSuffix|])
    else None
  }

  /** Backup names carry their timestamp recoverably, so distinct
      timestamps give distinct names. */
  lemma BackupFileNameRoundTrip(timestamp: string)
    ensures TimestampOf(BackupFileName(timestamp)) == Some(timestamp)
  {
    var f := BackupFileName(timestamp);
    assert f[..|BackupPrefix|] == BackupPrefix;
    assert f[|f| - |BackupSuffix|..] == BackupSuffix;
    assert f[|BackupPrefix|..|f| - |BackupSuffix|] == timestamp;
  }

  /** Every path of `walk` is a file below `dir`. */
  predicate WalkedFiles(fs: FileSystem, dir: string, walk: seq<string>) {
    forall i :: 0 <= i < |walk| ==> walk[i] in fs && UnderDir(dir, walk[i])
  }

  /** No path occurs twice. */
  predicate NoRepeats(walk: seq<string>) {
    forall i, j :: 0 <= i < j < |walk| ==> walk[i] != walk[j]
  }

  /** `walk` is what `os.walk` reports for `dir`: every file below it,
      each once, in some order. */
  predicate IsWalk(fs: FileSystem, dir: string, walk: seq<string>) {
    && WalkedFiles(fs, dir, walk)
    && NoRepeats(walk)
    && (forall p :: p in fs && UnderDir(dir, p) ==> p in walk)
  }

  /** The archive name of an upload: `uploads/` and its path relative to
      the upload folder. */
  function ArcName(dir: string, p: string): string
    requires UnderDir(dir, p)
  {
    UploadsPrefix + RelPath(dir, p)
  }

  /** The archive name is `os.path.join('uploads', rel)`. */
  lemma ArcNameIsJoin(dir: string, p: string)
    requires UnderDir(dir, p)
    ensures ArcName(dir, p) == Join(UploadsDir, RelPath(dir, p))
  {
    RelPathJoin(dir, p);
  }

  /** The entries written for the uploads: each file of the walk under its
      archive name, in walk order. */
  function UploadEntries(fs: FileSystem, dir: string, walk: seq<string>): (u: Archive)
    requires WalkedFiles(fs, dir, walk)
    ensures |u| == |walk|
    ensures forall k :: 0 <= k < |walk| ==> u[k] == Entry(ArcName(dir, walk[k]), fs[walk[k]])
    decreases |walk|
  {
    if walk == [] then []
    else
      var last := |walk| - 1;
      UploadEntries(fs, dir, walk[..last]) + [Entry(ArcName(dir, walk[last]), fs[walk[last]])]
  }

  /** The entries written: the database under its fixed name, then every
      file of the walk under its archive name. */
  function ArchiveOf(fs: FileSystem, dbPath: string, dir: string, walk: seq<string>): (a: Archive)
    requires dbPath in fs
    requires WalkedFiles(fs, dir, walk)
    ensures |a| == 1 + |walk|
    ensures a[0] == Entry(DatabaseEntry, fs[dbPath])
    ensures forall k :: 0 <= k < |walk| ==> a[k + 1] == Entry(ArcName(dir, walk[k]), fs[walk[k]])
  {
    [Entry(DatabaseEntry, fs[dbPath])] + UploadEntries(fs, dir, walk)
  }

  /** `create_backup_zip`: checks the URI, finds the database, and packs it
      under the fixed name `database.sqlite` ahead of every upload. */
  function CreateBackup(fs: FileSystem, cfg: Config, timestamp: string, walk: seq<string>): (res: Result<BackupFile, BackupError>)
    requires IsWalk(fs, cfg.uploadFolder, walk)
    ensures !IsSqlite(cfg.databaseUri) ==> res == Failure(UnsupportedDatabase)
    ensures IsSqlite(cfg.databaseUri) && CreateDatabasePath(fs, cfg) !in fs ==>
      res == Failure(DatabaseNotFound(CreateDatabasePath(fs, cfg)))
    ensures res.Success? <==> IsSqlite(cfg.databaseUri) && CreateDatabasePath(fs, cfg) in fs
    ensures res.Success? ==>
      && TimestampOf(res.value.filename) == Some(timestamp)
      && res.value.path == Join(cfg.instancePath, res.value.filename)
    ensures res.Success? ==>
      res.value.archive == ArchiveOf(fs, CreateDatabasePath(fs, cfg), cfg.uploadFolder, walk)
  {
    if !IsSqlite(cfg.databaseUri) then Failure(UnsupportedDatabase)
    else
      var dbPath := CreateDatabasePath(fs, cfg);
      if dbPath !in fs then Failure(DatabaseNotFound(dbPath))
      else
        var filename := BackupFileName(timestamp);
        BackupFileNameRoundTrip(timestamp);
        var archive := ArchiveOf(fs, dbPath, cfg.uploadFolder, walk);
        Success(BackupFile(Join(cfg.instancePath, filename), filename, archive))
  }

  /** Every file below the upload folder is in the archive, under its
      archive name and with its contents. */
  lemma ArchiveHasEveryUpload(fs: FileSystem, dbPath: string, dir: string, walk: seq<string>)
    requires dbPath in fs && IsWalk(fs, dir, walk)
    ensures var a := ArchiveOf(fs, dbPath, dir, walk);
      forall p :: p in fs && UnderDir(dir, p) ==>
        exists i :: 1 <= i < |a| && a[i] == Entry(ArcName(dir, p), fs[p])
  {
    var a := ArchiveOf(fs, dbPath, dir, walk);
    forall p | p in fs && UnderDir(dir, p)
      ensures exists i :: 1 <= i < |a| && a[i] == Entry(ArcName(dir, p), fs[p])
    {
      var k :| 0 <= k < |walk| && walk[k] == p;
      assert a[k + 1] == Entry(ArcName(dir, p), fs[p]);
    }
  }

  /** Every entry after the database is an `uploads/` entry for a file
      below the upload folder, with its contents. */
  lemma ArchiveHasOnlyUploads(fs: FileSystem, dbPath: string, dir: string, walk: seq<string>)
    requires dbPath in fs && WalkedFiles(fs, dir, walk)
    ensures var a := ArchiveOf(fs, dbPath, dir, walk);
      forall i :: 1 <= i < |a| ==>
        && StartsWith(a[i].name, UploadsPrefix)
        && exists p :: p in fs && UnderDir(dir, p) && a[i] == Entry(ArcName(dir, p), fs[p])
  {
    var a := ArchiveOf(fs, dbPath, dir, walk);
    forall i | 1 <= i < |a|
      ensures StartsWith(a[i].name, UploadsPrefix)
      ensures exists p :: p in fs && UnderDir(dir, p) && a[i] == Entry(ArcName(dir, p), fs[p])
    {
      var p := walk[i - 1];
      assert a[i] == Entry(ArcName(dir, p), fs[p]);
      ArcNameInUploads(dir, p);
    }
  }

  lemma ArcNameInUploads(dir: string, p: string)
    requires UnderDir(dir, p)
    ensures StartsWith(ArcName(dir, p), UploadsPrefix)
  {
    assert ArcName(dir, p)[..|UploadsPrefix|] == UploadsPrefix;
  }

  /** No two entries of a backup share a name, and `database.sqlite` is
      the first. */
  lemma ArchiveNamesDistinct(fs: FileSystem, dbPath: string, dir: string, walk: seq<string>)
    requires dbPath in fs && WalkedFiles(fs, dir, walk) && NoRepeats(walk)
    ensures var a := ArchiveOf(fs, dbPath, dir, walk);
      && a[0].name == DatabaseEntry
      && forall i, j :: 0 <= i < j < |a| ==> a[i].name != a[j].name
  {
    var a := ArchiveOf(fs, dbPath, dir, walk);
    forall i, j | 0 <= i < j < |a| ensures a[i].name != a[j].name {
      ArcNameNotDatabase(dir, walk[j - 1]);
      if i > 0 {
        ArcNamesDistinct(dir, walk[i - 1], walk[j - 1]);
      }
    }
  }

  lemma ArcNameNotDatabase(dir: string, p: string)
    requires UnderDir(dir, p)
    ensures ArcName(dir, p) != DatabaseEntry
  {
    ArcNameInUploads(dir, p);
    assert DatabaseEntry[7] != UploadsPrefix[7];
  }

  lemma ArcNamesDistinct(dir: string, p: string, q: string)
    requires UnderDir(dir, p) && UnderDir(dir, q) && p != q
    ensures ArcName(dir, p) != ArcName(dir, q)
  {
    var rp, rq := RelPath(dir, p), RelPath(dir, q);
    if rp == rq {
      RelPathInjective(dir, p, q);
    }
    assert ArcName(dir, p)[8..] == rp;
    assert ArcName(dir, q)[8..] == rq;
  }

  // ---------------------------------------------------------------------
  // restore_backup_zip
  // ---------------------------------------------------------------------

  /** `zipf.namelist()`. */
  function Names(archive: Archive): (names: seq<string>)
    ensures |names| == |archive|
    ensures forall i :: 0 <= i < |archive| ==> names[i] == archive[i].name
  {
    seq(|archive|, i requires 0 <= i < |archive| => archive[i].name)
  }

  /** The index of the entry a lookup by name reaches: the last one with
      that name. */
  function LastIndex(archive: Archive, name: string): (r: Option<nat>)
    ensures r.Some? ==> r.value < |archive| && archive[r.value].name == name
    ensures r.Some? ==> forall j :: r.value < j < |archive| ==> archive[j].name != name
    ensures r.None? <==> name !in Names(archive)
  {
    if archive == [] then None
    else if archive[|archive| - 1].name == name then Some(|archive| - 1)
    else
      var r := LastIndex(archive[..|archive| - 1], name);
      assert Names(archive) == Names(archive[..|archive| - 1]) + [archive[|archive| - 1].name];
      r
  }

  /** The contents a read of member `name` yields. */
  function EntryData(archive: Archive, name: string): Bytes
    requires name in Names(archive)
  {
    archive[LastIndex(archive, name).value].data
  }

  /** In an archive without repeated names, a lookup reaches the entry
      itself. */
  lemma LastIndexOfDistinct(archive: Archive, i: nat)
    requires i < |archive|
    requires forall a, b :: 0 <= a < b < |archive| ==> archive[a].name != archive[b].name
    ensures LastIndex(archive, archive[i].name) == Some(i)
  {
    var r := LastIndex(archive, archive[i].name);
    assert archive[i].name in Names(archive) by {
      assert Names(archive)[i] == archive[i].name;
    }
  }

  /** `<instance>/temp_restore`, the folder the database entry is unpacked
      into before it is moved into place. */
  function StagingDir(cfg: Config): string {
    Join(cfg.instancePath, StagingFolder)
  }

  /** Where the database entry is unpacked: a file below the staging
      folder, under the entry's own name. */
  function StagedDatabase(cfg: Config): (p: string)
    ensures UnderDir(StagingDir(cfg), p)
    ensures RelPath(StagingDir(cfg), p) == DatabaseEntry
    ensures EndsWith(p, DatabaseEntry)
  {
    JoinUnderDir(StagingDir(cfg), DatabaseEntry);
    var p := Join(StagingDir(cfg), DatabaseEntry);
    assert p[|DirPrefix(StagingDir(cfg))|..] == DatabaseEntry;
    p
  }

  /** A name ending in `database.sqlite` is nobody's `.bak` copy. */
  lemma NotBakCopy(staged: string, target: string)
    requires EndsWith(staged, DatabaseEntry)
    ensures staged != target + BakSuffix
  {
    var b := target + BakSuffix;
    assert b[|b| - 1] == 'k';
    assert staged[|staged| - 1] == DatabaseEntry[|DatabaseEntry| - 1] == 'e';
  }

  /** `shutil.rmtree(dir)`: every file below `dir` goes, the rest stay. */
  function RemoveTree(fs: FileSystem, dir: string): (fs': FileSystem)
    ensures forall k :: UnderDir(dir, k) ==> k !in fs'
    ensures forall k :: !UnderDir(dir, k) ==> Same(fs, fs', k)
  {
    map k | k in fs && !UnderDir(dir, k) :: fs[k]
  }

  /** `shutil.move(src, dst)` of a file: `dst` takes over the contents of
      `src`, which disappears. */
  function Move(fs: FileSystem, src: string, dst: string): (fs': FileSystem)
    requires src in fs
    ensures dst in fs' && fs'[dst] == fs[src]
    ensures src != dst ==> src !in fs'
    ensures forall k :: k != src && k != dst ==> Same(fs, fs', k)
  {
    (fs - {src})[dst := fs[src]]
  }

  /** The database half of a restore: the entry is unpacked to `staged`,
      an existing target is moved to `.bak`, and the staged file is moved
      onto the target. When the target is the staged file itself, the
      first move has already taken it away and the second one fails. */
  function InstallDatabase(fs: FileSystem, staged: string, target: string, data: Bytes): (e: Effect)
    ensures e.status == Restored <==> target != staged
    ensures e.status.Failed? ==> e.status.error == StagedDatabaseMissing
    ensures e.status.Failed? ==>
      target !in e.fs && target + BakSuffix in e.fs && e.fs[target + BakSuffix] == data
    ensures e.status == Restored && staged != target + BakSuffix ==>
      && target in e.fs && e.fs[target] == data
      && (target in fs ==> target + BakSuffix in e.fs && e.fs[target + BakSuffix] == fs[target])
    ensures forall k :: k != staged && k != target && k != target + BakSuffix ==> Same(fs, e.fs, k)
    ensures target !in fs && target != staged && staged != target + BakSuffix ==>
      Same(fs, e.fs, target + BakSuffix)
    ensures forall k :: k in fs && k != staged ==> k in e.fs
  {
    var unpacked := fs[staged := data];
    var kept := if target in unpacked then Move(unpacked, target, target + BakSuffix) else unpacked;
    if staged in kept then Effect(Move(kept, staged, target), Restored)
    else Effect(kept, Failed(StagedDatabaseMissing))
  }

  /** Where member `name` is extracted: `uploads/` members with a
      non-empty basename go flat into the upload folder. */
  function UploadTarget(dir: string, name: string): (t: Option<string>)
    ensures t.Some? ==> StartsWith(name, UploadsPrefix) && Basename(name) != ""
    ensures t.None? ==> !StartsWith(name, UploadsPrefix) || Basename(name) == ""
  {
    if StartsWith(name, UploadsPrefix) && Basename(name) != "" then Some(Join(dir, Basename(name)))
    else None
  }

  /** Where each member of the archive is extracted, in archive order. */
  function Targets(dir: string, archive: Archive): (t: seq<Option<string>>)
    ensures |t| == |archive|
    ensures forall i :: 0 <= i < |archive| ==> t[i] == UploadTarget(dir, archive[i].name)
  {
    seq(|archive|, i requires 0 <= i < |archive| => UploadTarget(dir, archive[i].name))
  }

  /** What reading each member by its name yields, in archive order. */
  function Reads(archive: Archive): (d: seq<Bytes>)
    ensures |d| == |archive|
    ensures forall i :: 0 <= i < |archive| ==> archive[i].name in Names(archive)
    ensures forall i :: 0 <= i < |archive| ==> d[i] == EntryData(archive, archive[i].name)
  {
    assert forall i :: 0 <= i < |archive| ==> Names(archive)[i] == archive[i].name;
    seq(|archive|, i requires 0 <= i < |archive| => EntryData(archive, archive[i].name))
  }

  /** The upload loop over the first `n` members: member `i` is written
      to `targets[i]` with contents `data[i]` when it has a target. */
  function ExtractUploads(fs: FileSystem, targets: seq<Option<string>>, data: seq<Bytes>, n: nat): (fs': FileSystem)
    requires n <= |targets| && n <= |data|
    ensures fs.Keys <= fs'.Keys
    decreases n
  {
    if n == 0 then fs
    else
      var before := ExtractUploads(fs, targets, data, n - 1);
      match targets[n - 1]
      case None => before
      case Some(t) => before[t := data[n - 1]]
  }

  /** A file no member is extracted to keeps its state. */
  lemma {:induction false} ExtractUploadsUntouched(fs: FileSystem, targets: seq<Option<string>>, data: seq<Bytes>, n: nat, k: string)
    requires n <= |targets| && n <= |data|
    requires forall i :: 0 <= i < n ==> targets[i] != Some(k)
    ensures Same(fs, ExtractUploads(fs, targets, data, n), k)
    decreases n
  {
    if n > 0 {
      ExtractUploadsUntouched(fs, targets, data, n - 1, k);
    }
  }

  /** A file several members are extracted to ends up with the data of the
      last of them. */
  lemma {:induction false} ExtractUploadsLastWins(fs: FileSystem, targets: seq<Option<string>>, data: seq<Bytes>, n: nat, i: nat)
    requires i < n <= |targets| && n <= |data|
    requires targets[i].Some?
    requires forall j :: i < j < n ==> targets[j] != targets[i]
    ensures var out := ExtractUploads(fs, targets, data, n);
      targets[i].value in out && out[targets[i].value] == data[i]
    decreases n
  {
    if n - 1 > i {
      ExtractUploadsLastWins(fs, targets, data, n - 1, i);
    }
  }

  /** `restore_backup_zip`: checks the URI and the mandatory entry before
      touching any file, clears the staging folder, installs the database,
      extracts the uploads and clears the staging folder again. */
  function RestoreBackup(fs: FileSystem, cfg: Config, archive: Archive): (e: Effect)
    ensures !IsSqlite(cfg.databaseUri) ==> e == Effect(fs, Failed(UnsupportedDatabase))
    ensures IsSqlite(cfg.databaseUri) && DatabaseEntry !in Names(archive) ==>
      e == Effect(fs, Failed(MissingDatabaseEntry))
    ensures e.status == Restored <==>
      IsSqlite(cfg.databaseUri) && DatabaseEntry in Names(archive)
      && RestoreDatabasePath(fs, cfg) != StagedDatabase(cfg)
    ensures forall k :: k in fs && !UnderDir(StagingDir(cfg), k) ==> k in e.fs
    ensures e.status == Restored ==> forall k :: k in e.fs ==> !UnderDir(StagingDir(cfg), k)
  {
    if !IsSqlite(cfg.databaseUri) then Effect(fs, Failed(UnsupportedDatabase))
    else
      var target := RestoreDatabasePath(fs, cfg);
      if DatabaseEntry !in Names(archive) then Effect(fs, Failed(MissingDatabaseEntry))
      else
        FinishRestore(InstallDatabase(RemoveTree(fs, StagingDir(cfg)), StagedDatabase(cfg), target,
                                      EntryData(archive, DatabaseEntry)),
                      cfg, archive)
  }

  /** What follows a database install: unless the install failed, the
      upload loop over every member, then the staging folder cleared. */
  function FinishRestore(installed: Effect, cfg: Config, archive: Archive): (e: Effect)
    ensures installed.status.Failed? ==> e == installed
    ensures installed.status == Restored ==> e.status == Restored
  {
    if installed.status.Failed? then installed
    else
      var extracted := ExtractUploads(installed.fs, Targets(cfg.uploadFolder, archive), Reads(archive), |archive|);
      Effect(RemoveTree(extracted, StagingDir(cfg)), Restored)
  }

  /** Outside the staging folder, finishing a restore leaves what the
      upload loop wrote. */
  lemma FinishRestoreKeeps(installed: Effect, cfg: Config, archive: Archive, k: string)
    requires installed.status == Restored && !UnderDir(StagingDir(cfg), k)
    ensures Same(ExtractUploads(installed.fs, Targets(cfg.uploadFolder, archive), Reads(archive), |archive|),
                 FinishRestore(installed, cfg, archive).fs, k)
  {
  }

  /** A restore that passes its checks clears the staging folder,
      installs the database and finishes from there. */
  lemma RestoreSteps(fs: FileSystem, cfg: Config, archive: Archive)
    ensures IsSqlite(cfg.databaseUri) && DatabaseEntry in Names(archive) ==>
      RestoreBackup(fs, cfg, archive) ==
      FinishRestore(InstallDatabase(RemoveTree(fs, StagingDir(cfg)), StagedDatabase(cfg),
                                    RestoreDatabasePath(fs, cfg), EntryData(archive, DatabaseEntry)),
                    cfg, archive)
  {
  }

  /** A file outside the staging folder that no member is extracted to
      keeps, through the rest of a restore, the state the install left it
      in. */
  lemma FinishRestoreUntouched(installed: Effect, cfg: Config, archive: Archive, k: string)
    requires installed.status == Restored && !UnderDir(StagingDir(cfg), k)
    requires forall i :: 0 <= i < |archive| ==> UploadTarget(cfg.uploadFolder, archive[i].name) != Some(k)
    ensures Same(installed.fs, FinishRestore(installed, cfg, archive).fs, k)
  {
    ExtractUploadsUntouched(installed.fs, Targets(cfg.uploadFolder, archive), Reads(archive), |archive|, k);
    FinishRestoreKeeps(installed, cfg, archive, k);
  }

  /** Neither the database nor its `.bak` copy is the target of an upload
      member. */
  predicate UploadsMissDatabase(cfg: Config, archive: Archive, target: string) {
    forall i :: 0 <= i < |archive| ==>
      && UploadTarget(cfg.uploadFolder, archive[i].name) != Some(target)
      && UploadTarget(cfg.uploadFolder, archive[i].name) != Some(target + BakSuffix)
  }

  /** After a restore to a database outside the staging folder, the
      database file holds the archived `database.sqlite`, and the previous
      database sits beside it as `.bak`. */
  lemma RestoreInstallsDatabase(fs: FileSystem, cfg: Config, archive: Archive)
    requires IsSqlite(cfg.databaseUri) && DatabaseEntry in Names(archive)
    requires UploadsMissDatabase(cfg, archive, RestoreDatabasePath(fs, cfg))
    ensures var target := RestoreDatabasePath(fs, cfg);
      var e := RestoreBackup(fs, cfg, archive);
      !UnderDir(StagingDir(cfg), target) ==>
        && e.status == Restored
        && target in e.fs && e.fs[target] == EntryData(archive, DatabaseEntry)
        && (target in fs && !UnderDir(StagingDir(cfg), target + BakSuffix) ==>
              target + BakSuffix in e.fs && e.fs[target + BakSuffix] == fs[target])
  {
    var target := RestoreDatabasePath(fs, cfg);
    var staging := StagingDir(cfg);
    var staged := StagedDatabase(cfg);
    if !UnderDir(staging, target) {
      NotBakCopy(staged, target);
      RestoreSteps(fs, cfg, archive);
      var data := EntryData(archive, DatabaseEntry);
      var cleared := RemoveTree(fs, staging);
      assert Same(fs, cleared, target);
      assert target != staged;
      var installed := InstallDatabase(cleared, staged, target, data);
      assert installed.status == Restored;
      assert target in installed.fs && installed.fs[target] == data;
      var e := FinishRestore(installed, cfg, archive);
      FinishRestoreUntouched(installed, cfg, archive, target);
      if target in fs && !UnderDir(staging, target + BakSuffix) {
        assert target + BakSuffix in installed.fs && installed.fs[target + BakSuffix] == fs[target];
        FinishRestoreUntouched(installed, cfg, archive, target + BakSuffix);
      }
    }
  }

  /** Every `uploads/` member with a basename lands in the upload folder
      under that basename, the last such member winning, unless the
      restore failed or that file lies in the staging folder. */
  lemma RestoreExtractsUploads(fs: FileSystem, cfg: Config, archive: Archive, i: nat)
    requires IsSqlite(cfg.databaseUri) && DatabaseEntry in Names(archive)
    requires i < |archive|
    requires StartsWith(archive[i].name, UploadsPrefix) && Basename(archive[i].name) != ""
    requires forall j :: i < j < |archive| ==>
      UploadTarget(cfg.uploadFolder, archive[j].name) != UploadTarget(cfg.uploadFolder, archive[i].name)
    ensures archive[i].name in Names(archive)
    ensures var e := RestoreBackup(fs, cfg, archive);
      var k := Join(cfg.uploadFolder, Basename(archive[i].name));
      e.status == Restored && !UnderDir(StagingDir(cfg), k) ==>
        k in e.fs && e.fs[k] == EntryData(archive, archive[i].name)
  {
    var k := Join(cfg.uploadFolder, Basename(archive[i].name));
    RestoreSteps(fs, cfg, archive);
    var installed := InstallDatabase(RemoveTree(fs, StagingDir(cfg)), StagedDatabase(cfg),
                                     RestoreDatabasePath(fs, cfg), EntryData(archive, DatabaseEntry));
    if installed.status == Restored && !UnderDir(StagingDir(cfg), k) {
      ExtractUploadsLastWins(installed.fs, Targets(cfg.uploadFolder, archive), Reads(archive), |archive|, i);
      FinishRestoreKeeps(installed, cfg, archive, k);
    }
  }

  /** A restore touches nothing outside the staging folder but the
      database, its `.bak` copy when there was a database to move there,
      and the files upload members are extracted to; a successful one
      leaves nothing in the staging folder. */
  lemma RestoreKeepsOtherFiles(fs: FileSystem, cfg: Config, archive: Archive, k: string)
    requires k != RestoreDatabasePath(fs, cfg)
    requires k == RestoreDatabasePath(fs, cfg) + BakSuffix ==> RestoreDatabasePath(fs, cfg) !in fs
    requires forall i :: 0 <= i < |archive| ==> UploadTarget(cfg.uploadFolder, archive[i].name) != Some(k)
    ensures var e := RestoreBackup(fs, cfg, archive);
      && (!UnderDir(StagingDir(cfg), k) ==> Same(fs, e.fs, k))
      && (UnderDir(StagingDir(cfg), k) && e.status == Restored ==> k !in e.fs)
  {
    var staging := StagingDir(cfg);
    if !IsSqlite(cfg.databaseUri) || DatabaseEntry !in Names(archive) {
      assert RestoreBackup(fs, cfg, archive).fs == fs;
    } else if !UnderDir(staging, k) {
      RestoreSteps(fs, cfg, archive);
      var cleared := RemoveTree(fs, staging);
      var installed := InstallDatabase(cleared, StagedDatabase(cfg), RestoreDatabasePath(fs, cfg),
                                       EntryData(archive, DatabaseEntry));
      var target := RestoreDatabasePath(fs, cfg);
      assert Same(fs, cleared, k);
      assert k != StagedDatabase(cfg);
      if k == target + BakSuffix {
        NotBakCopy(StagedDatabase(cfg), target);
        if target == StagedDatabase(cfg) {
          UnderDirExtend(staging, target, BakSuffix);
          assert false;
        }
        assert target !in cleared;
      }
      assert Same(cleared, installed.fs, k);
      var e := FinishRestore(installed, cfg, archive);
      if installed.status == Restored {
        FinishRestoreUntouched(installed, cfg, archive, k);
      } else {
        assert e == installed;
      }
      assert Same(fs, e.fs, k);
    }
  }

  /** Every file below the upload folder sits directly in it. */
  predicate FlatUploads(fs: FileSystem, dir: string) {
    forall p :: p in fs && UnderDir(dir, p) ==> '/' !in RelPath(dir, p)
  }

  /** A flat upload is extracted back to where it came from. */
  lemma FlatUploadTarget(dir: string, p: string)
    requires UnderDir(dir, p) && '/' !in RelPath(dir, p)
    ensures UploadTarget(dir, ArcName(dir, p)) == Some(p)
  {
    var rel := RelPath(dir, p);
    RelPathJoin(dir, p);
    BasenameAfterSlash(UploadsPrefix, rel);
  }

  /** Where a restore puts the members of a backup of a flat upload
      folder: nowhere for the database, and member `m + 1` back onto
      `walk[m]`. */
  lemma BackupTargets(fs: FileSystem, dbPath: string, dir: string, walk: seq<string>)
    requires dbPath in fs && WalkedFiles(fs, dir, walk) && FlatUploads(fs, dir)
    ensures var a := ArchiveOf(fs, dbPath, dir, walk);
      && UploadTarget(dir, a[0].name).None?
      && forall m :: 0 <= m < |walk| ==> UploadTarget(dir, a[m + 1].name) == Some(walk[m])
  {
    var a := ArchiveOf(fs, dbPath, dir, walk);
    DatabaseEntryStaysPut(dir);
    forall m | 0 <= m < |walk| ensures UploadTarget(dir, a[m + 1].name) == Some(walk[m]) {
      assert walk[m] in fs && UnderDir(dir, walk[m]);
      assert a[m + 1].name == ArcName(dir, walk[m]);
      FlatUploadTarget(dir, walk[m]);
    }
  }

  /** `database.sqlite` is not an `uploads/` member. */
  lemma DatabaseEntryStaysPut(dir: string)
    ensures UploadTarget(dir, DatabaseEntry).None?
  {
    assert DatabaseEntry[7] != UploadsPrefix[7];
  }

  /** Restoring a backup of a flat upload folder brings file `walk[m]`
      back with its contents, whatever the file system it lands on. */
  lemma BackupUploadRestored(start: FileSystem, fs: FileSystem, dbPath: string, dir: string, walk: seq<string>, m: nat)
    requires dbPath in fs && WalkedFiles(fs, dir, walk) && NoRepeats(walk) && FlatUploads(fs, dir)
    requires m < |walk|
    ensures var out := var a := ArchiveOf(fs, dbPath, dir, walk);
      ExtractUploads(start, Targets(dir, a), Reads(a), |a|);
      walk[m] in out && out[walk[m]] == fs[walk[m]]
  {
    var a := ArchiveOf(fs, dbPath, dir, walk);
    BackupTargets(fs, dbPath, dir, walk);
    ArchiveNamesDistinct(fs, dbPath, dir, walk);
    forall j | m + 1 < j < |a| ensures UploadTarget(dir, a[j].name) != Some(walk[m]) {
      assert UploadTarget(dir, a[j].name) == Some(walk[j - 1]);
    }
    UniqueMemberRestored(start, dir, a, m + 1, walk[m]);
  }

  /** In an archive without repeated names, the last member extracted to
      `p` leaves its own contents there. */
  lemma UniqueMemberRestored(start: FileSystem, dir: string, a: Archive, i: nat, p: string)
    requires i < |a|
    requires forall x, y :: 0 <= x < y < |a| ==> a[x].name != a[y].name
    requires UploadTarget(dir, a[i].name) == Some(p)
    requires forall j :: i < j < |a| ==> UploadTarget(dir, a[j].name) != Some(p)
    ensures var out := ExtractUploads(start, Targets(dir, a), Reads(a), |a|);
      p in out && out[p] == a[i].data
  {
    ExtractUploadsLastWins(start, Targets(dir, a), Reads(a), |a|, i);
    LastIndexOfDistinct(a, i);
  }

  /** Backing up and restoring on the same file system succeeds unless the
      database is the staged file itself, loses no file outside the
      staging folder, and gives back the database and, when the upload
      folder is flat, every upload under its own name, wherever they lie
      outside the staging folder. */
  lemma BackupRestoreRoundTrip(fs: FileSystem, cfg: Config, timestamp: string, walk: seq<string>)
    requires IsWalk(fs, cfg.uploadFolder, walk)
    requires FlatUploads(fs, cfg.uploadFolder)
    requires CreateBackup(fs, cfg, timestamp, walk).Success?
    ensures var e := RestoreBackup(fs, cfg, CreateBackup(fs, cfg, timestamp, walk).value.archive);
      var db := CreateDatabasePath(fs, cfg);
      var staging := StagingDir(cfg);
      && db in fs
      && (e.status == Restored <==> db != StagedDatabase(cfg))
      && (forall k :: k in fs && !UnderDir(staging, k) ==> k in e.fs)
      && (!UnderDir(staging, db) ==> db in e.fs && e.fs[db] == fs[db])
      && (e.status == Restored ==>
            forall p :: p in fs && UnderDir(cfg.uploadFolder, p) && !UnderDir(staging, p) ==>
              p in e.fs && e.fs[p] == fs[p])
  {
    var dir := cfg.uploadFolder;
    var db := CreateDatabasePath(fs, cfg);
    var a := ArchiveOf(fs, db, dir, walk);
    var staging := StagingDir(cfg);
    var staged := StagedDatabase(cfg);
    var e := RestoreBackup(fs, cfg, a);
    ResolutionsAgree(fs, cfg);
    BackupDatabaseEntry(fs, db, dir, walk);
    RestoreSteps(fs, cfg, a);
    if db != staged {
      var cleared := RemoveTree(fs, staging);
      var installed := InstallDatabase(cleared, staged, db, fs[db]);
      var out := ExtractUploads(installed.fs, Targets(dir, a), Reads(a), |a|);
      forall p | p in fs && UnderDir(dir, p) && !UnderDir(staging, p)
        ensures p in e.fs && e.fs[p] == fs[p]
      {
        var m :| 0 <= m < |walk| && walk[m] == p;
        BackupUploadRestored(installed.fs, fs, db, dir, walk, m);
        FinishRestoreKeeps(installed, cfg, a, p);
      }
      if !UnderDir(staging, db) {
        NotBakCopy(staged, db);
        assert Same(fs, cleared, db);
        if !UnderDir(dir, db) {
          BackupMissesDatabase(installed.fs, fs, db, dir, walk);
          FinishRestoreKeeps(installed, cfg, a, db);
        }
      }
    }
  }

  /** A backup's `database.sqlite` reads back as the database file. */
  lemma BackupDatabaseEntry(fs: FileSystem, dbPath: string, dir: string, walk: seq<string>)
    requires dbPath in fs && WalkedFiles(fs, dir, walk) && NoRepeats(walk)
    ensures var a := ArchiveOf(fs, dbPath, dir, walk);
      DatabaseEntry in Names(a) && EntryData(a, DatabaseEntry) == fs[dbPath]
  {
    var a := ArchiveOf(fs, dbPath, dir, walk);
    ArchiveNamesDistinct(fs, dbPath, dir, walk);
    LastIndexOfDistinct(a, 0);
    assert Names(a)[0] == DatabaseEntry;
  }

  /** A database outside the upload folder is not written by the upload
      loop of its own backup. */
  lemma BackupMissesDatabase(start: FileSystem, fs: FileSystem, dbPath: string, dir: string, walk: seq<string>)
    requires dbPath in fs && WalkedFiles(fs, dir, walk) && FlatUploads(fs, dir)
    requires !UnderDir(dir, dbPath)
    ensures var a := ArchiveOf(fs, dbPath, dir, walk);
      Same(start, ExtractUploads(start, Targets(dir, a), Reads(a), |a|), dbPath)
  {
    var a := ArchiveOf(fs, dbPath, dir, walk);
    var t := Targets(dir, a);
    forall i | 0 <= i < |a| ensures t[i] != Some(dbPath) {
      MemberMissesDatabase(fs, dbPath, dir, walk, i);
    }
    ExtractUploadsUntouched(start, t, Reads(a), |a|, dbPath);
  }

  /** Member `i` of a backup is not extracted onto a database lying
      outside the upload folder. */
  lemma MemberMissesDatabase(fs: FileSystem, dbPath: string, dir: string, walk: seq<string>, i: nat)
    requires dbPath in fs && WalkedFiles(fs, dir, walk) && FlatUploads(fs, dir)
    requires !UnderDir(dir, dbPath)
    requires i <= |walk|
    ensures UploadTarget(dir, ArchiveOf(fs, dbPath, dir, walk)[i].name) != Some(dbPath)
  {
    var a := ArchiveOf(fs, dbPath, dir, walk);
    if i == 0 {
      DatabaseEntryStaysPut(dir);
    } else {
      var p := walk[i - 1];
      assert p in fs && UnderDir(dir, p);
      assert a[i].name == ArcName(dir, p);
      FlatUploadTarget(dir, p);
    }
  }
}

=== FILE: lookup.dfy ===
/** The metadata lookup behind the `/api/lookup/<barcode>` route: a barcode
    is cleaned into an ISBN and up to three catalogue providers (Google
    Books, Open Library, Discogs) are consulted in a fixed order, each one
    filling in a shared `LookupResult`.

    HTTP, JSON decoding and exceptions are abstracted away: every provider
    is a function from its query to an optional, already parsed record, with
    `None` standing for a failed request, a non-200 status, an empty result
    list or an exception. */
module Lookup {
  import opened Wrappers
  import opened Strings

  /** The JSON object the route returns. */
  datatype LookupResult = LookupResult(
    success: bool,
    title: string,
    author: string,
    year: string,
    description: string,
    imageUrl: string)

  /** The record before any provider has answered. */
  const Empty := LookupResult(false, "", "", "", "", "")

  /** Google Books descriptions are cut to this many characters. */
  const DescriptionLimit := 800

  const Http := "http://"
  const Https := "https://"
  const TitleSeparator := " - "
  const GenresLabel := "Genres: "
  const ListSeparator := ", "

  // ---------------------------------------------------------------------
  // Barcode cleaning
  // ---------------------------------------------------------------------

  /** A character kept in the cleaned ISBN: a decimal digit or the ISBN-10
      check character in either case. */
  predicate IsIsbnChar(c: char) {
    '0' <= c <= '9' || c == 'X' || c == 'x'
  }

  /** The barcode reduced to its ISBN characters. */
  function CleanIsbn(barcode: string): (isbn: string)
    ensures |isbn| <= |barcode|
    ensures forall i :: 0 <= i < |isbn| ==> IsIsbnChar(isbn[i])
  {
    if barcode == [] then []
    else (if IsIsbnChar(barcode[0]) then [barcode[0]] else []) + CleanIsbn(barcode[1..])
  }

  /** Cleaning works character by character: it distributes over
      concatenation. Together with the one-character case this pins
      `CleanIsbn` down as the order-preserving filter. */
  lemma {:induction false} CleanIsbnDistributes(a: string, b: string)
    ensures CleanIsbn(a + b) == CleanIsbn(a) + CleanIsbn(b)
    decreases |a|
  {
    if a != [] {
      assert (a + b)[0] == a[0];
      assert (a + b)[1..] == a[1..] + b;
      CleanIsbnDistributes(a[1..], b);
    } else {
      assert a + b == b;
    }
  }

  /** A single character survives exactly when it is an ISBN character. */
  lemma CleanIsbnSingle(c: char)
    ensures CleanIsbn([c]) == if IsIsbnChar(c) then [c] else []
  {
  }

  /** Every ISBN character of the barcode survives, as often as it occurs,
      and nothing else does. */
  lemma {:induction false} CleanIsbnCounts(barcode: string)
    ensures forall c :: multiset(CleanIsbn(barcode))[c] == if IsIsbnChar(c) then multiset(barcode)[c] else 0
    decreases |barcode|
  {
    if barcode != [] {
      CleanIsbnCounts(barcode[1..]);
      assert barcode == [barcode[0]] + barcode[1..];
      assert multiset(barcode) == multiset([barcode[0]]) + multiset(barcode[1..]);
    }
  }

  /** A string is left unchanged by cleaning exactly when it consists of
      ISBN characters only. */
  lemma {:induction false} CleanIsbnFixedPoints(s: string)
    ensures CleanIsbn(s) == s <==> forall i :: 0 <= i < |s| ==> IsIsbnChar(s[i])
    decreases |s|
  {
    if s != [] {
      CleanIsbnFixedPoints(s[1..]);
      if IsIsbnChar(s[0]) {
        assert CleanIsbn(s) == [s[0]] + CleanIsbn(s[1..]);
        assert (forall i :: 0 <= i < |s| ==> IsIsbnChar(s[i])) <==> (forall i :: 0 <= i < |s[1..]| ==> IsIsbnChar(s[1..][i]));
      }
    }
  }

  /** Cleaning twice is cleaning once. */
  lemma CleanIsbnIdempotent(barcode: string)
    ensures CleanIsbn(CleanIsbn(barcode)) == CleanIsbn(barcode)
  {
    CleanIsbnFixedPoints(CleanIsbn(barcode));
  }

  // ---------------------------------------------------------------------
  // Stage 1: Google Books
  // ---------------------------------------------------------------------

  /** The fields of `items[0].volumeInfo` the route reads; an absent field
      is the empty string or the empty list. */
  datatype GoogleVolume = GoogleVolume(
    title: string,
    authors: seq<string>,
    description: string,
    publishedDate: string,
    thumbnail: string,
    smallThumbnail: string)

  /** `url` with every `http://` turned into `https://` when it starts with
      `http://`; any other URL is kept as it is. */
  function UpgradeToHttps(url: string): (r: string)
    ensures StartsWith(url, Http) ==> StartsWith(r, Https)
    ensures !StartsWith(url, Http) ==> r == url
    ensures url != [] ==> r != []
    ensures StartsWith(url, Http) && !Contains(url[|Http|..], Http) ==> r == Https + url[|Http|..]
    ensures StartsWith(url, Http) ==> r == Https + ReplaceAll(url[|Http|..], Http, Https)
  {
    if StartsWith(url, Http) then
      ReplaceAllAtStart(url, Http, Https);
      ReplaceAll(url, Http, Https)
    else url
  }

  /** If the replaced text begins with a string free of `h`, so does the
      original: replacement only ever writes text starting with `h`. */
  lemma {:induction false} ReplacedPrefixWithoutH(t: string, q: string)
    requires forall k :: 0 <= k < |q| ==> q[k] != 'h'
    ensures StartsWith(ReplaceAll(t, Http, Https), q) ==> StartsWith(t, q)
    decreases |t|
  {
    if q != [] && t != [] {
      var r := ReplaceAll(t, Http, Https);
      if StartsWith(t, Http) {
        assert r == Https + ReplaceAll(t[|Http|..], Http, Https);
        assert r[0] == 'h';
      } else {
        var tail := ReplaceAll(t[1..], Http, Https);
        assert r == [t[0]] + tail;
        ReplacedPrefixWithoutH(t[1..], q[1..]);
        if StartsWith(r, q) {
          assert r[1..] == tail;
          assert StartsWith(tail, q[1..]);
          assert t == [t[0]] + t[1..];
        }
      }
    }
  }

  lemma ShiftOccurrence(a: string, b: string, i: nat, pat: string)
    requires |a| <= i
    ensures OccursAt(a + b, i, pat) <==> OccursAt(b, i - |a|, pat)
  {
    if i + |pat| <= |a + b| {
      assert (a + b)[i..i + |pat|] == b[i - |a|..i - |a| + |pat|];
    }
  }

  /** Replacing every `http://` by `https://` leaves no `http://` behind. */
  lemma {:induction false} ReplaceAllRemovesHttp(s: string)
    ensures forall i: nat :: !OccursAt(ReplaceAll(s, Http, Https), i, Http)
    decreases |s|
  {
    var r := ReplaceAll(s, Http, Https);
    if s != [] {
      if StartsWith(s, Http) {
        var rest := ReplaceAll(s[|Http|..], Http, Https);
        ReplaceAllRemovesHttp(s[|Http|..]);
        assert r == Https + rest;
        forall i: nat ensures !OccursAt(r, i, Http) {
          if i >= |Https| {
            ShiftOccurrence(Https, rest, i, Http);
          } else if i == 0 {
            assert i + 4 < |r| ==> r[4] == 's';
          } else {
            assert r[i] == Https[i];
          }
        }
      } else {
        var rest := ReplaceAll(s[1..], Http, Https);
        ReplaceAllRemovesHttp(s[1..]);
        ReplacedPrefixWithoutH(s[1..], "ttp://");
        assert r == [s[0]] + rest;
        forall i: nat ensures !OccursAt(r, i, Http) {
          if i >= 1 {
            ShiftOccurrence([s[0]], rest, i, Http);
          } else {
            ConsPrefix(s[0], rest, Http);
            HttpFromParts(s);
          }
        }
      }
    }
  }

  lemma ConsPrefix(c: char, rest: string, pat: string)
    requires pat != []
    ensures StartsWith([c] + rest, pat) ==> c == pat[0] && StartsWith(rest, pat[1..])
  {
    if StartsWith([c] + rest, pat) {
      assert ([c] + rest)[1..|pat|] == rest[..|pat| - 1];
    }
  }

  lemma HttpFromParts(s: string)
    requires s != []
    ensures s[0] == 'h' && StartsWith(s[1..], "ttp://") ==> StartsWith(s, Http)
  {
    if s[0] == 'h' && StartsWith(s[1..], "ttp://") {
      assert s[..7] == [s[0]] + s[1..][..6];
    }
  }

  /** A Google image served over `http://` is stored as `https://`, with no
      `http://` left anywhere in it. */
  lemma UpgradeToHttpsIsComplete(url: string)
    requires StartsWith(url, Http)
    ensures StartsWith(UpgradeToHttps(url), Https)
    ensures forall i: nat :: !OccursAt(UpgradeToHttps(url), i, Http)
  {
    ReplaceAllRemovesHttp(url);
  }

  /** The cover Google offers: the thumbnail, else the small thumbnail. */
  function GoogleImage(v: GoogleVolume): string {
    if v.thumbnail != "" then v.thumbnail else v.smallThumbnail
  }

  /** Stage 1. A hit marks the lookup successful and fills in the text
      fields; the year and image are written only when there is one. */
  function ApplyGoogleBooks(r: LookupResult, reply: Option<GoogleVolume>): (r': LookupResult)
    ensures reply.None? ==> r' == r
    ensures r.success ==> r'.success
    ensures !r'.success ==> r' == r
    ensures reply.Some? ==> var v := reply.value;
      && r'.success
      && r'.title == v.title
      && r'.author == JoinWith(ListSeparator, v.authors)
      && |r'.description| <= DescriptionLimit
      && StartsWith(v.description, r'.description)
      && (|v.description| <= DescriptionLimit ==> r'.description == v.description)
      && (|v.description| > DescriptionLimit ==> |r'.description| == DescriptionLimit)
      && (|v.publishedDate| >= 4 ==> |r'.year| == 4 && StartsWith(v.publishedDate, r'.year))
      && (|v.publishedDate| < 4 ==> r'.year == r.year)
      && (v.thumbnail != "" ==> r'.imageUrl == UpgradeToHttps(v.thumbnail))
      && (v.thumbnail == "" && v.smallThumbnail != "" ==> r'.imageUrl == UpgradeToHttps(v.smallThumbnail))
      && (v.thumbnail == "" && v.smallThumbnail == "" ==> r'.imageUrl == r.imageUrl)
  {
    match reply
    case None => r
    case Some(v) =>
      var image := GoogleImage(v);
      r.(success := true,
         title := v.title,
         author := JoinWith(ListSeparator, v.authors),
         description := Take(v.description, DescriptionLimit),
         year := if |v.publishedDate| >= 4 then v.publishedDate[..4] else r.year,
         imageUrl := if image != "" then UpgradeToHttps(image) else r.imageUrl)
  }

  // ---------------------------------------------------------------------
  // Stage 2: Open Library
  // ---------------------------------------------------------------------

  /** The fields of the first book in the Open Library reply; an absent
      `cover` object is two empty sizes. */
  datatype OpenLibraryBook = OpenLibraryBook(
    title: string,
    authorNames: seq<string>,
    publishDate: string,
    coverLarge: string,
    coverMedium: string)

  predicate IsAsciiDigit(c: char) {
    '0' <= c <= '9'
  }

  /** Four decimal digits start at index `i` of `s`. */
  predicate FourDigitsAt(s: string, i: nat) {
    i + 4 <= |s| && forall k :: i <= k < i + 4 ==> IsAsciiDigit(s[k])
  }

  /** The first index at or after `from` where four digits start. */
  function FindFourDigits(s: string, from: nat): (r: Option<nat>)
    requires from <= |s|
    ensures r.Some? ==> from <= r.value && FourDigitsAt(s, r.value)
    ensures r.Some? ==> forall j :: from <= j < r.value ==> !FourDigitsAt(s, j)
    ensures r.None? ==> forall j: nat :: from <= j ==> !FourDigitsAt(s, j)
    decreases |s| - from
  {
    if FourDigitsAt(s, from) then Some(from)
    else if from == |s| then None
    else FindFourDigits(s, from + 1)
  }

  /** `re.search(r'\d{4}', s)`: the leftmost run of four digits. */
  function SearchYear(s: string): (y: Option<string>)
    ensures y.None? <==> forall j: nat :: !FourDigitsAt(s, j)
    ensures y.Some? ==> |y.value| == 4 && forall k :: 0 <= k < 4 ==> IsAsciiDigit(y.value[k])
    ensures y.Some? ==> exists i: nat :: OccursAt(s, i, y.value) && forall j :: 0 <= j < i ==> !FourDigitsAt(s, j)
  {
    match FindFourDigits(s, 0)
    case None => None
    case Some(i) =>
      assert OccursAt(s, i, s[i..i + 4]);
      Some(s[i..i + 4])
  }

  /** The cover Open Library offers: the large size, else the medium one. */
  function OpenLibraryCover(b: OpenLibraryBook): string {
    if b.coverLarge != "" then b.coverLarge else b.coverMedium
  }

  /** Stage 2. Text fields are taken only when no earlier provider
      succeeded; a cover replaces the image in any case. */
  function ApplyOpenLibrary(r: LookupResult, reply: Option<OpenLibraryBook>): (r': LookupResult)
    ensures reply.None? ==> r' == r
    ensures r.success ==> r'.success
    ensures !r'.success ==> r' == r
    ensures r'.description == r.description
    ensures reply.Some? ==> r'.success
    ensures reply.Some? && r.success ==> r'.(imageUrl := r.imageUrl) == r
    ensures reply.Some? && !r.success ==> var b := reply.value;
      && r'.title == b.title
      && r'.author == JoinWith(ListSeparator, b.authorNames)
      && (SearchYear(b.publishDate).Some? ==> r'.year == SearchYear(b.publishDate).value)
      && (SearchYear(b.publishDate).None? ==> r'.year == r.year)
    ensures reply.Some? ==> var b := reply.value;
      && (b.coverLarge != "" ==> r'.imageUrl == b.coverLarge)
      && (b.coverLarge == "" && b.coverMedium != "" ==> r'.imageUrl == b.coverMedium)
      && (b.coverLarge == "" && b.coverMedium == "" ==> r'.imageUrl == r.imageUrl)
  {
    match reply
    case None => r
    case Some(b) =>
      var withText :=
        if r.success then r
        else r.(success := true,
                title := b.title,
                author := JoinWith(ListSeparator, b.authorNames),
                year := match SearchYear(b.publishDate)
                        case Some(y) => y
                        case None => r.year);
      var cover := OpenLibraryCover(b);
      if cover != "" then withText.(imageUrl := cover) else withText
  }

  // ---------------------------------------------------------------------
  // Stage 3: Discogs
  // ---------------------------------------------------------------------

  /** The fields of the first Discogs search result; the year is taken as
      the text the route copies into the reply. */
  datatype DiscogsRelease = DiscogsRelease(
    title: string,
    year: string,
    coverImage: string,
    thumb: string,
    genres: seq<string>,
    styles: seq<string>)

  /** The `"artist - title"` field split on its first separator, both parts
      stripped; `None` when there is no separator. */
  function SplitArtistTitle(full: string): (r: Option<(string, string)>)
    ensures r.None? <==> !Contains(full, TitleSeparator)
    ensures r.Some? ==> exists artist, title ::
      && full == artist + TitleSeparator + title
      && (forall j :: 0 <= j < |artist| ==> !OccursAt(full, j, TitleSeparator))
      && r.value == (Strip(artist), Strip(title))
  {
    match SplitOnce(full, TitleSeparator)
    case None => None
    case Some((artist, title)) => Some((Strip(artist), Strip(title)))
  }

  /** Stage 3. A hit marks the lookup successful, splits the combined title
      into author and title and describes the release by its genres and
      styles. */
  function ApplyDiscogs(r: LookupResult, reply: Option<DiscogsRelease>): (r': LookupResult)
    ensures reply.None? ==> r' == r
    ensures r.success ==> r'.success
    ensures !r'.success ==> r' == r
    ensures reply.Some? ==> var d := reply.value;
      && r'.success
      && r'.year == d.year
      && StartsWith(r'.description, GenresLabel)
      && r'.description == GenresLabel + JoinWith(ListSeparator, d.genres + d.styles)
      && (SplitArtistTitle(d.title).Some? ==>
            (r'.author, r'.title) == SplitArtistTitle(d.title).value)
      && (SplitArtistTitle(d.title).None? ==> r'.title == d.title && r'.author == r.author)
      && (d.coverImage != "" ==> r'.imageUrl == d.coverImage)
      && (d.coverImage == "" && d.thumb != "" ==> r'.imageUrl == d.thumb)
      && (d.coverImage == "" && d.thumb == "" ==> r'.imageUrl == r.imageUrl)
  {
    match reply
    case None => r
    case Some(d) =>
      var image := if d.coverImage != "" then d.coverImage else d.thumb;
      var names := match SplitArtistTitle(d.title)
                   case Some(parts) => parts
                   case None => (r.author, d.title);
      r.(success := true,
         author := names.0,
         title := names.1,
         year := d.year,
         imageUrl := if image != "" then image else r.imageUrl,
         description := GenresLabel + JoinWith(ListSeparator, d.genres + d.styles))
  }

  // ---------------------------------------------------------------------
  // The pipeline
  // ---------------------------------------------------------------------

  /** A request sent to a provider. Google Books and Open Library are asked
      for the cleaned ISBN, Discogs for the raw barcode with the token. */
  datatype Query =
    | GoogleBooksQuery(isbn: string)
    | OpenLibraryQuery(isbn: string)
    | DiscogsQuery(barcode: string, token: string)

  /** Every provider's answer to every query it may be sent. */
  datatype Providers = Providers(
    googleBooks: string -> Option<GoogleVolume>,
    openLibrary: string -> Option<OpenLibraryBook>,
    discogs: (string, string) -> Option<DiscogsRelease>)

  /** The reply and the queries sent, in order. */
  datatype LookupRun = LookupRun(result: LookupResult, queries: seq<Query>)

  /** Open Library is consulted when there is no hit yet or no image. */
  predicate NeedsOpenLibrary(r: LookupResult) {
    !r.success || r.imageUrl == ""
  }

  /** Discogs is consulted only when nothing has succeeded and a token is
      configured (an unset token reads as empty). */
  predicate NeedsDiscogs(r: LookupResult, token: string) {
    !r.success && token != ""
  }

  /** The whole lookup: three stages, each guarded by the state the earlier
      ones left behind. */
  function ApiLookup(barcode: string, token: string, p: Providers): (run: LookupRun)
    ensures 1 <= |run.queries| <= 3
    ensures run.queries[0] == GoogleBooksQuery(CleanIsbn(barcode))
    ensures !run.result.success ==> run.result == Empty
  {
    var isbn := CleanIsbn(barcode);
    var r1 := ApplyGoogleBooks(Empty, p.googleBooks(isbn));
    var q1 := [GoogleBooksQuery(isbn)];
    var r2 := if NeedsOpenLibrary(r1) then ApplyOpenLibrary(r1, p.openLibrary(isbn)) else r1;
    var q2 := if NeedsOpenLibrary(r1) then q1 + [OpenLibraryQuery(isbn)] else q1;
    var r3 := if NeedsDiscogs(r2, token) then ApplyDiscogs(r2, p.discogs(barcode, token)) else r2;
    var q3 := if NeedsDiscogs(r2, token) then q2 + [DiscogsQuery(barcode, token)] else q2;
    LookupRun(r3, q3)
  }

  /** The lookup succeeds exactly when Google Books or Open Library knows
      the ISBN, or a token is configured and Discogs knows the barcode. */
  lemma LookupSucceedsIff(barcode: string, token: string, p: Providers)
    ensures var isbn := CleanIsbn(barcode);
      ApiLookup(barcode, token, p).result.success <==>
        || p.googleBooks(isbn).Some?
        || p.openLibrary(isbn).Some?
        || (token != "" && p.discogs(barcode, token).Some?)
  {
  }

  /** Open Library is asked exactly when Google Books had no hit or its hit
      carried no image. */
  lemma OpenLibraryQueriedIff(barcode: string, token: string, p: Providers)
    ensures var isbn := CleanIsbn(barcode); var g := p.googleBooks(isbn);
      OpenLibraryQuery(isbn) in ApiLookup(barcode, token, p).queries <==>
        g.None? || GoogleImage(g.value) == ""
  {
  }

  /** Discogs is asked exactly when a token is configured and neither
      earlier provider had a hit. */
  lemma DiscogsQueriedIff(barcode: string, token: string, p: Providers)
    ensures var isbn := CleanIsbn(barcode);
      DiscogsQuery(barcode, token) in ApiLookup(barcode, token, p).queries <==>
        token != "" && p.googleBooks(isbn).None? && p.openLibrary(isbn).None?
  {
  }

  /** A Google Books hit with an image ends the lookup: no other provider
      is asked and the reply is stage 1's record. */
  lemma GoogleHitWithImageShortCircuits(barcode: string, token: string, p: Providers)
    requires var g := p.googleBooks(CleanIsbn(barcode)); g.Some? && GoogleImage(g.value) != ""
    ensures var run := ApiLookup(barcode, token, p);
      && run.queries == [GoogleBooksQuery(CleanIsbn(barcode))]
      && run.result == ApplyGoogleBooks(Empty, p.googleBooks(CleanIsbn(barcode)))
  {
  }

  /** When no provider contributes anything the reply is the initial
      record: unsuccessful, every text empty. */
  lemma NoHitYieldsEmpty(barcode: string, token: string, p: Providers)
    requires p.googleBooks(CleanIsbn(barcode)).None?
    requires p.openLibrary(CleanIsbn(barcode)).None?
    requires p.discogs(barcode, token).None?
    ensures ApiLookup(barcode, token, p).result == Empty
  {
  }

  /** Google Books text with an Open Library cover: when Google has a hit
      without an image and Open Library has a cover, the reply keeps
      Google's text and takes Open Library's cover. */
  lemma GoogleTextWithOpenLibraryCover(barcode: string, token: string, p: Providers)
    requires var g := p.googleBooks(CleanIsbn(barcode)); g.Some? && GoogleImage(g.value) == ""
    requires var b := p.openLibrary(CleanIsbn(barcode)); b.Some? && OpenLibraryCover(b.value) != ""
    ensures var g := ApplyGoogleBooks(Empty, p.googleBooks(CleanIsbn(barcode)));
      var r := ApiLookup(barcode, token, p).result;
      && r.success
      && r.(imageUrl := "") == g
      && r.imageUrl == OpenLibraryCover(p.openLibrary(CleanIsbn(barcode)).value)
  {
  }

  /** Unless Discogs answered, the description is at most 800 characters
      and the year is empty or four characters long. */
  lemma ShapeWithoutDiscogs(barcode: string, token: string, p: Providers)
    requires DiscogsQuery(barcode, token) !in ApiLookup(barcode, token, p).queries
             || p.discogs(barcode, token).None?
    ensures var r := ApiLookup(barcode, token, p).result;
      |r.description| <= DescriptionLimit && (|r.year| == 0 || |r.year| == 4)
  {
  }

  /** When Discogs supplies the result, the author is empty unless the
      title carried an `artist - title` separator, and the description is
      the genre list. */
  lemma DiscogsResultShape(barcode: string, token: string, p: Providers)
    requires DiscogsQuery(barcode, token) in ApiLookup(barcode, token, p).queries
    requires p.discogs(barcode, token).Some?
    ensures var d := p.discogs(barcode, token).value;
      var r := ApiLookup(barcode, token, p).result;
      && r.success
      && StartsWith(r.description, GenresLabel)
      && (!Contains(d.title, TitleSeparator) ==> r.title == d.title && r.author == "")
  {
  }

  /** When neither book catalogue knows the ISBN and a token is set, the
      reply is whatever Discogs makes of the empty record. */
  lemma DiscogsAlone(barcode: string, token: string, p: Providers)
    requires token != ""
    requires p.googleBooks(CleanIsbn(barcode)).None?
    requires p.openLibrary(CleanIsbn(barcode)).None?
    ensures ApiLookup(barcode, token, p).result == ApplyDiscogs(Empty, p.discogs(barcode, token))
  {
  }

  /** The documented example: a Discogs title `Pink Floyd - The Wall`
      becomes author `Pink Floyd` and title `The Wall`. */
  lemma PinkFloydExample(barcode: string, token: string, p: Providers)
    requires token != ""
    requires p.googleBooks(CleanIsbn(barcode)).None?
    requires p.openLibrary(CleanIsbn(barcode)).None?
    requires p.discogs(barcode, token) == Some(DiscogsRelease("Pink Floyd - The Wall", "1979", "", "", ["Rock"], []))
    ensures var r := ApiLookup(barcode, token, p).result;
      && r.author == "Pink Floyd" && r.title == "The Wall" && r.year == "1979"
      && r.description == "Genres: Rock"
  {
    DiscogsAlone(barcode, token, p);
    PinkFloydRelease();
  }

  lemma PinkFloydRelease()
    ensures var r := ApplyDiscogs(Empty, Some(DiscogsRelease("Pink Floyd - The Wall", "1979", "", "", ["Rock"], [])));
      && r.author == "Pink Floyd" && r.title == "The Wall" && r.year == "1979"
      && r.description == "Genres: Rock"
  {
    PinkFloydSplit();
    PinkFloydGenres();
  }

  lemma PinkFloydGenres()
    ensures GenresLabel + JoinWith(ListSeparator, ["Rock"] + []) == "Genres: Rock"
  {
    assert ["Rock"] + [] == ["Rock"];
  }

  /** An artist name without `-` is split off exactly. */
  lemma SplitArtistWithoutDash(artist: string, title: string)
    requires '-' !in artist
    ensures SplitOnce(artist + TitleSeparator + title, TitleSeparator) == Some((artist, title))
  {
    var full := artist + TitleSeparator + title;
    forall j | 0 <= j < |artist| ensures !OccursAt(full, j, TitleSeparator) {
      if j + 1 < |artist| {
        assert full[j + 1] == artist[j + 1];
      } else {
        assert full[j + 1] == ' ';
      }
      assert full[j..j + 3][1] == full[j + 1] != TitleSeparator[1];
    }
    assert OccursAt(full, |artist|, TitleSeparator);
    FindIsFirst(full, TitleSeparator, |artist|);
    assert full[..|artist|] == artist;
    assert full[|artist| + 3..] == title;
  }

  lemma PinkFloydParts()
    ensures SplitArtistTitle("Pink Floyd - The Wall") == Some((Strip("Pink Floyd"), Strip("The Wall")))
  {
    assert "Pink Floyd - The Wall" == "Pink Floyd" + TitleSeparator + "The Wall";
    assert '-' !in "Pink Floyd";
    SplitArtistWithoutDash("Pink Floyd", "The Wall");
  }

  lemma PinkFloydStripped()
    ensures Strip("Pink Floyd") == "Pink Floyd" && Strip("The Wall") == "The Wall"
  {
    StripUnpadded("Pink Floyd");
    StripUnpadded("The Wall");
  }

  lemma PinkFloydSplit()
    ensures SplitArtistTitle("Pink Floyd - The Wall") == Some(("Pink Floyd", "The Wall"))
  {
    PinkFloydParts();
    PinkFloydStripped();
  }
}

=== FILE: paths.dfy ===
/** The part of Python's `posixpath` the backup code uses: absolute paths,
    `join`, `basename` and `relpath` below a directory. Paths are taken to be
    in normal form (no `.` or `..` components, no repeated `/`). */
module Paths {
  import opened Wrappers
  import opened Strings

  /** `os.path.isabs`. */
  predicate IsAbs(p: string) {
    |p| > 0 && p[0] == '/'
  }

  /** `dir` as `os.path.join` extends it: with a trailing `/` unless it is
      empty or already has one. */
  function DirPrefix(dir: string): (d: string)
    ensures StartsWith(d, dir)
    ensures d == [] || d[|d| - 1] == '/'
  {
    if dir == "" || EndsWith(dir, "/") then dir else dir + "/"
  }

  /** `os.path.join(dir, name)`: an absolute `name` replaces `dir`. */
  function Join(dir: string, name: string): (p: string)
    ensures IsAbs(name) ==> p == name
    ensures !IsAbs(name) ==> StartsWith(p, dir) && EndsWith(p, name)
  {
    if IsAbs(name) then name else DirPrefix(dir) + name
  }

  /** `os.path.basename(p)`: the text after the last `/`. */
  function Basename(p: string): (b: string)
    ensures EndsWith(p, b)
    ensures '/' !in b
    ensures |b| < |p| ==> p[|p| - |b| - 1] == '/'
  {
    match FindLast(p, '/')
    case None => p
    case Some(i) =>
      var b := p[i + 1..];
      assert forall k :: 0 <= k < |b| ==> b[k] == p[i + 1 + k];
      b
  }

  /** The basename of a path whose directory part ends in `/` is the name
      after it, as long as that name has no `/`. */
  lemma BasenameAfterSlash(d: string, name: string)
    requires d != [] && d[|d| - 1] == '/'
    requires '/' !in name
    ensures Basename(d + name) == name
  {
    var p := d + name;
    assert forall j :: |d| <= j < |p| ==> p[j] == name[j - |d|];
    assert p[|d| - 1] == '/';
    var r := FindLast(p, '/');
    assert r.Some?;
    assert r.value >= |d| - 1;
    assert r.value < |d| by {
      assert p[r.value] == '/';
    }
    assert p[|d|..] == name;
  }

  /** `p` names an entry strictly below `dir`. */
  predicate UnderDir(dir: string, p: string) {
    var d := DirPrefix(dir);
    StartsWith(p, d) && |p| > |d| && p[|d|] != '/'
  }

  /** Joining a non-empty relative name onto `dir` gives a path below it. */
  lemma JoinUnderDir(dir: string, name: string)
    requires name != [] && !IsAbs(name)
    ensures UnderDir(dir, Join(dir, name))
  {
    var d := DirPrefix(dir);
    assert (d + name)[|d|] == name[0];
  }

  /** `os.path.relpath(p, dir)` for a path below `dir`: what follows the
      directory prefix. */
  function RelPath(dir: string, p: string): string
    requires UnderDir(dir, p)
  {
    p[|DirPrefix(dir)|..]
  }

  /** Extending a path below `dir` gives a path below `dir`. */
  lemma UnderDirExtend(dir: string, p: string, x: string)
    requires UnderDir(dir, p)
    ensures UnderDir(dir, p + x)
  {
    var d := DirPrefix(dir);
    assert (p + x)[..|d|] == p[..|d|];
  }

  /** The relative path of a path below `dir` is a non-empty relative
      path, and joining it back onto `dir` gives the path. */
  lemma RelPathJoin(dir: string, p: string)
    requires UnderDir(dir, p)
    ensures RelPath(dir, p) != [] && !IsAbs(RelPath(dir, p))
    ensures Join(dir, RelPath(dir, p)) == p
  {
    var d := DirPrefix(dir);
    assert p == d + p[|d|..];
  }

  /** Two paths below the same directory with the same relative path are
      the same path. */
  lemma RelPathInjective(dir: string, p: string, q: string)
    requires UnderDir(dir, p) && UnderDir(dir, q)
    requires RelPath(dir, p) == RelPath(dir, q)
    ensures p == q
  {
    RelPathJoin(dir, p);
    RelPathJoin(dir, q);
  }
}

=== FILE: strings.dfy ===
/** The string operations the lookup and backup code relies on, written
    after Python's `str` methods: prefix tests, substring search, `replace`,
    `join`, `strip`, `split(sep, 1)` and ASCII case folding. */
module Strings {
  import opened Wrappers

  predicate StartsWith(s: string, prefix: string) {
    |prefix| <= |s| && s[..|prefix|] == prefix
  }

  predicate EndsWith(s: string, suffix: string) {
    |suffix| <= |s| && s[|s| - |suffix|..] == suffix
  }

  /** `pat` occurs in `s` starting at index `i`. */
  predicate OccursAt(s: string, i: nat, pat: string) {
    i + |pat| <= |s| && s[i..i + |pat|] == pat
  }

  /** Index of the first occurrence of `pat` in `s` at or after `from`. */
  function FindFrom(s: string, pat: string, from: nat): (r: Option<nat>)
    requires from <= |s|
    ensures r.Some? ==> from <= r.value && OccursAt(s, r.value, pat)
    ensures r.Some? ==> forall j :: from <= j < r.value ==> !OccursAt(s, j, pat)
    ensures r.None? ==> forall j: nat :: from <= j ==> !OccursAt(s, j, pat)
    decreases |s| - from
  {
    if OccursAt(s, from, pat) then Some(from)
    else if from == |s| then None
    else FindFrom(s, pat, from + 1)
  }

  /** Python's `s.find(pat)`, as an option: the first occurrence. */
  function Find(s: string, pat: string): (r: Option<nat>)
    ensures r.Some? ==> OccursAt(s, r.value, pat)
    ensures r.Some? ==> forall j :: 0 <= j < r.value ==> !OccursAt(s, j, pat)
    ensures r.None? ==> forall j: nat :: !OccursAt(s, j, pat)
  {
    FindFrom(s, pat, 0)
  }

  /** `Find` returns the occurrence no earlier occurrence precedes. */
  lemma FindIsFirst(s: string, pat: string, i: nat)
    requires OccursAt(s, i, pat)
    requires forall j :: 0 <= j < i ==> !OccursAt(s, j, pat)
    ensures Find(s, pat) == Some(i)
  {
  }

  /** Python's `pat in s`: `pat` occurs somewhere in `s`. */
  predicate Contains(s: string, pat: string) {
    exists j | 0 <= j <= |s| :: OccursAt(s, j, pat)
  }

  /** Index of the last occurrence of character `c` in `s`. */
  function FindLast(s: string, c: char): (r: Option<nat>)
    ensures r.Some? ==> r.value < |s| && s[r.value] == c
    ensures r.Some? ==> forall j :: r.value < j < |s| ==> s[j] != c
    ensures r.None? ==> forall j :: 0 <= j < |s| ==> s[j] != c
  {
    if s == [] then None
    else if s[|s| - 1] == c then Some(|s| - 1)
    else FindLast(s[..|s| - 1], c)
  }

  /** A pattern missing from a non-empty string neither starts it nor
      occurs in its tail. */
  lemma AbsentFromTail(s: string, pat: string)
    requires s != []
    ensures !Contains(s, pat) ==> !StartsWith(s, pat) && !Contains(s[1..], pat)
  {
    if !Contains(s, pat) {
      assert !OccursAt(s, 0, pat);
      if |pat| <= |s| {
        assert s[0..|pat|] == s[..|pat|];
      }
      match Find(s[1..], pat)
      case None =>
      case Some(j) =>
        assert s[1..][j..j + |pat|] == s[j + 1..j + 1 + |pat|];
        assert OccursAt(s, j + 1, pat);
    }
  }

  /** The left-to-right scan behind Python's `s.replace(pat, rep)` for a
      non-empty `pat`: an occurrence at the front is replaced and skipped,
      any other first character is kept. */
  function ReplaceScan(s: string, pat: string, rep: string): string
    requires pat != []
    decreases |s|
  {
    if s == [] then []
    else if StartsWith(s, pat) then rep + ReplaceScan(s[|pat|..], pat, rep)
    else [s[0]] + ReplaceScan(s[1..], pat, rep)
  }

  /** The scan leaves a string without `pat` as it is. */
  lemma {:induction false} ScanWithout(s: string, pat: string, rep: string)
    requires pat != []
    ensures !Contains(s, pat) ==> ReplaceScan(s, pat, rep) == s
    decreases |s|
  {
    if s != [] && !Contains(s, pat) {
      AbsentFromTail(s, pat);
      ScanWithout(s[1..], pat, rep);
      assert s == [s[0]] + s[1..];
    }
  }

  /** Python's `s.replace(pat, rep)` for a non-empty `pat`: non-overlapping
      occurrences replaced from left to right; a string without `pat`
      comes back as it is. */
  function ReplaceAll(s: string, pat: string, rep: string): (r: string)
    requires pat != []
    ensures !Contains(s, pat) ==> r == s
  {
    ScanWithout(s, pat, rep);
    ReplaceScan(s, pat, rep)
  }

  /** `replace` on a string that starts with `pat` writes `rep` and
      carries on after the occurrence. */
  lemma ReplaceAllAtStart(s: string, pat: string, rep: string)
    requires pat != [] && StartsWith(s, pat)
    ensures ReplaceAll(s, pat, rep) == rep + ReplaceAll(s[|pat|..], pat, rep)
  {
  }

  /** The first occurrence of `pat` in a string past its first character
      is the first occurrence in the tail, one place earlier. */
  lemma FindInTail(s: string, pat: string, i: nat)
    requires Find(s, pat) == Some(i) && i > 0
    ensures Find(s[1..], pat) == Some(i - 1)
  {
    assert s[1..][i - 1..i - 1 + |pat|] == s[i..i + |pat|];
    forall j | 0 <= j < i - 1 ensures !OccursAt(s[1..], j, pat) {
      assert !OccursAt(s, j + 1, pat);
      if j + |pat| <= |s[1..]| {
        assert s[1..][j..j + |pat|] == s[j + 1..j + 1 + |pat|];
      }
    }
    FindIsFirst(s[1..], pat, i - 1);
  }

  /** The scan over a string that does not start with `pat` keeps the
      first character and carries on with the rest. */
  lemma ScanSkip(s: string, pat: string, rep: string)
    requires pat != [] && s != [] && !StartsWith(s, pat)
    ensures ReplaceScan(s, pat, rep) == [s[0]] + ReplaceScan(s[1..], pat, rep)
  {
  }

  /** Putting the first character back in front of a tail split around
      position `i - 1` splits the whole string around position `i`. */
  lemma ConsSplit(s: string, i: nat, rep: string, r: string, t: string, x: string)
    requires 0 < i <= |s|
    requires r == [s[0]] + t
    requires t == s[1..][..i - 1] + rep + x
    ensures r == s[..i] + rep + x
  {
    assert s[..i] == [s[0]] + s[1..][..i - 1];
  }

  /** No position before `i` starts an occurrence of `pat`, stated one
      character at a time. */
  predicate NoMatchBefore(s: string, pat: string, i: nat)
    requires i <= |s|
  {
    i == 0 || (!StartsWith(s, pat) && NoMatchBefore(s[1..], pat, i - 1))
  }

  /** The first occurrence found by `Find` has no match before it. */
  lemma {:induction false} FoundNoMatchBefore(s: string, pat: string, i: nat)
    requires Find(s, pat) == Some(i)
    ensures i <= |s| && NoMatchBefore(s, pat, i)
    decreases i
  {
    if i > 0 {
      NotAtStart(s, pat);
      FindInTail(s, pat, i);
      FoundNoMatchBefore(s[1..], pat, i - 1);
    }
  }

  /** The scan over a string with an occurrence at `i` and no match before
      it copies the text before `i`, writes `rep` and carries on after the
      occurrence. */
  lemma {:induction false} ScanBefore(s: string, pat: string, rep: string, i: nat)
    requires pat != [] && i + |pat| <= |s|
    requires NoMatchBefore(s, pat, i) && StartsWith(s[i..], pat)
    ensures ReplaceScan(s, pat, rep) == s[..i] + rep + ReplaceScan(s[i + |pat|..], pat, rep)
    decreases i
  {
    if i == 0 {
      assert s[0..] == s;
    } else {
      var t := ReplaceScan(s[1..], pat, rep);
      var x := ReplaceScan(s[i + |pat|..], pat, rep);
      assert s[1..][i - 1..] == s[i..];
      ScanSkip(s, pat, rep);
      ScanBefore(s[1..], pat, rep, i - 1);
      assert s[1..][i - 1 + |pat|..] == s[i + |pat|..];
      ConsSplit(s, i, rep, ReplaceScan(s, pat, rep), t, x);
    }
  }

  /** `replace` turns the first occurrence of `pat` into `rep`, keeps the
      text before it, and carries on after it; with the unchanged result
      for a string without `pat`, this fixes `replace` on every string. */
  lemma ReplaceAllAtFirst(s: string, pat: string, rep: string, i: nat)
    requires pat != []
    requires Find(s, pat) == Some(i)
    ensures ReplaceAll(s, pat, rep) == s[..i] + rep + ReplaceAll(s[i + |pat|..], pat, rep)
  {
    FoundNoMatchBefore(s, pat, i);
    assert s[i..][..|pat|] == s[i..i + |pat|];
    ScanBefore(s, pat, rep, i);
  }

  /** A string whose first occurrence of `pat` lies further on does not
      start with `pat`. */
  lemma NotAtStart(s: string, pat: string)
    requires Find(s, pat).Some? && Find(s, pat).value > 0
    ensures !StartsWith(s, pat)
  {
    assert !OccursAt(s, 0, pat);
    if |pat| <= |s| {
      assert s[0..|pat|] == s[..|pat|];
    }
  }

  /** Python's `s[:n]`. */
  function Take(s: string, n: nat): (r: string)
    ensures |r| <= n && StartsWith(s, r)
    ensures |s| <= n ==> r == s
    ensures n <= |s| ==> |r| == n
  {
    if |s| <= n then s else s[..n]
  }

  /** Python's `sep.join(parts)`. */
  function JoinWith(sep: string, parts: seq<string>): (r: string)
    ensures parts == [] ==> r == []
    ensures |parts| == 1 ==> r == parts[0]
    ensures parts != [] ==> StartsWith(r, parts[0]) && EndsWith(r, parts[|parts| - 1])
    ensures |parts| > 1 ==> OccursAt(r, |parts[0]|, sep)
  {
    if parts == [] then []
    else if |parts| == 1 then parts[0]
    else
      var rest := JoinWith(sep, parts[1..]);
      var r := parts[0] + sep + rest;
      assert r[..|parts[0]|] == parts[0];
      assert r[|parts[0]|..|parts[0]| + |sep|] == sep;
      assert r[|r| - |parts[|parts| - 1]|..] == rest[|rest| - |parts[|parts| - 1]|..];
      r
  }

  /** `join` on two or more parts is the first part, `sep`, then the join
      of the rest. */
  lemma JoinWithUnfold(sep: string, parts: seq<string>)
    requires |parts| > 1
    ensures JoinWith(sep, parts) == parts[0] + sep + JoinWith(sep, parts[1..])
  {
  }

  /** Separated concatenation regroups freely. */
  lemma SepRegroup(p: string, sep: string, x: string, y: string)
    ensures p + sep + (x + sep + y) == (p + sep + x) + sep + y
  {
  }

  /** Joining two non-empty lists of parts is joining each and putting
      `sep` between them; with the one-part case, this fixes `join` on
      every list. */
  lemma {:induction false} JoinWithConcat(sep: string, a: seq<string>, b: seq<string>)
    requires a != [] && b != []
    ensures JoinWith(sep, a + b) == JoinWith(sep, a) + sep + JoinWith(sep, b)
    decreases |a|
  {
    assert (a + b)[0] == a[0];
    assert (a + b)[1..] == a[1..] + b;
    JoinWithUnfold(sep, a + b);
    if |a| == 1 {
      assert a[1..] + b == b;
    } else {
      JoinWithConcat(sep, a[1..], b);
      JoinWithUnfold(sep, a);
      SepRegroup(a[0], sep, JoinWith(sep, a[1..]), JoinWith(sep, b));
    }
  }

  /** The characters Python's `str.strip()` removes (`str.isspace`). */
  predicate IsSpace(c: char) {
    || c == ' '
    || '\t' <= c <= '\r'
    || '\U{1C}' <= c <= '\U{1F}'
    || c == '\U{85}' || c == '\U{A0}' || c == '\U{1680}'
    || '\U{2000}' <= c <= '\U{200A}'
    || c == '\U{2028}' || c == '\U{2029}' || c == '\U{202F}'
    || c == '\U{205F}' || c == '\U{3000}'
  }

  /** Number of whitespace characters at the start of `s`. */
  function LeadingSpaces(s: string): (n: nat)
    ensures n <= |s|
    ensures forall k :: 0 <= k < n ==> IsSpace(s[k])
    ensures n < |s| ==> !IsSpace(s[n])
  {
    if s == [] || !IsSpace(s[0]) then 0 else 1 + LeadingSpaces(s[1..])
  }

  /** Number of whitespace characters at the end of `s`. */
  function TrailingSpaces(s: string): (n: nat)
    ensures n <= |s|
    ensures forall k :: |s| - n <= k < |s| ==> IsSpace(s[k])
    ensures n < |s| ==> !IsSpace(s[|s| - n - 1])
  {
    if s == [] || !IsSpace(s[|s| - 1]) then 0 else 1 + TrailingSpaces(s[..|s| - 1])
  }

  /** Python's `s.strip()`: `s` with surrounding whitespace removed, and
      nothing else. */
  function Strip(s: string): (r: string)
    ensures r == [] || (!IsSpace(r[0]) && !IsSpace(r[|r| - 1]))
    ensures LeadingSpaces(s) + |r| <= |s|
    ensures s == s[..LeadingSpaces(s)] + r + s[LeadingSpaces(s) + |r|..]
    ensures forall k :: LeadingSpaces(s) + |r| <= k < |s| ==> IsSpace(s[k])
  {
    var i := LeadingSpaces(s);
    var rest := s[i..];
    var r := rest[..|rest| - TrailingSpaces(rest)];
    assert s == s[..i] + r + s[i + |r|..];
    r
  }

  /** A string with no surrounding whitespace is its own strip. */
  lemma StripUnpadded(s: string)
    requires s == [] || (!IsSpace(s[0]) && !IsSpace(s[|s| - 1]))
    ensures Strip(s) == s
  {
  }

  /** Python's `s.split(sep, 1)` when `sep` occurs: the text before the
      first occurrence and the text after it. */
  function SplitOnce(s: string, sep: string): (r: Option<(string, string)>)
    ensures r.None? <==> !Contains(s, sep)
    ensures r.Some? ==> s == r.value.0 + sep + r.value.1
    ensures r.Some? ==> forall j :: 0 <= j < |r.value.0| ==> !OccursAt(s, j, sep)
    ensures r.Some? && sep != [] ==> !Contains(r.value.0, sep)
  {
    match Find(s, sep)
    case None => None
    case Some(i) =>
      assert s == s[..i] + sep + s[i + |sep|..];
      if sep != [] then
        NoOccurrenceInPrefix(s, i, sep);
        Some((s[..i], s[i + |sep|..]))
      else
        Some((s[..i], s[i + |sep|..]))
  }

  /** Text that no occurrence of `pat` starts in has no occurrence of its own. */
  lemma NoOccurrenceInPrefix(s: string, i: nat, pat: string)
    requires pat != [] && i <= |s|
    requires forall j :: 0 <= j < i ==> !OccursAt(s, j, pat)
    ensures !Contains(s[..i], pat)
  {
    var a := s[..i];
    forall j: nat ensures !OccursAt(a, j, pat) {
      if j + |pat| <= |a| {
        assert j < i;
        assert a[j..j + |pat|] == s[j..j + |pat|];
        assert !OccursAt(s, j, pat);
      }
    }
  }

  function LowerChar(c: char): char {
    if 'A' <= c <= 'Z' then (c as int + 32) as char else c
  }

  /** `s.lower()` restricted to ASCII letters. */
  function AsciiLower(s: string): (r: string)
    ensures |r| == |s|
    ensures forall i :: 0 <= i < |s| ==> r[i] == LowerChar(s[i])
  {
    seq(|s|, i requires 0 <= i < |s| => LowerChar(s[i]))
  }
}

=== FILE: uploads.dfy ===
/** The upload filter `allowed_file`: an image upload is accepted by the
    extension after its last dot, compared case-insensitively. */
module UploadNames {
  import opened Wrappers
  import opened Strings

  const AllowedExtensions: set<string> := {"png", "jpg", "jpeg", "gif"}

  /** `filename.rsplit('.', 1)[1]` when the name contains a dot: the text
      after the last dot. */
  function Extension(filename: string): (ext: Option<string>)
    ensures ext.None? <==> '.' !in filename
    ensures ext.Some? ==> '.' !in ext.value
    ensures ext.Some? ==>
      && |ext.value| < |filename|
      && filename == filename[..|filename| - |ext.value| - 1] + "." + ext.value
  {
    match FindLast(filename, '.')
    case None => None
    case Some(i) =>
      var ext := filename[i + 1..];
      assert forall k :: 0 <= k < |ext| ==> ext[k] == filename[i + 1 + k];
      assert filename == filename[..i] + "." + ext;
      Some(ext)
  }

  /** `allowed_file(filename)`. */
  predicate AllowedFile(filename: string): (ok: bool)
    ensures ok ==> '.' in filename
    ensures ok ==> 3 <= |Extension(filename).value| <= 4
  {
    match Extension(filename)
    case None => false
    case Some(ext) => AsciiLower(ext) in AllowedExtensions
  }

  /** A name is accepted exactly when it has a dot and the text after its
      last dot, lower-cased, is one of the four image extensions. */
  lemma AllowedFileIff(filename: string)
    ensures AllowedFile(filename) <==>
      exists i :: 0 <= i < |filename| && filename[i] == '.'
        && (forall j :: i < j < |filename| ==> filename[j] != '.')
        && AsciiLower(filename[i + 1..]) in AllowedExtensions
  {
    if AllowedFile(filename) {
      var i := FindLast(filename, '.').value;
      assert filename[i] == '.';
    }
    if exists i :: 0 <= i < |filename| && filename[i] == '.'
        && (forall j :: i < j < |filename| ==> filename[j] != '.')
        && AsciiLower(filename[i + 1..]) in AllowedExtensions {
      var i :| 0 <= i < |filename| && filename[i] == '.'
        && (forall j :: i < j < |filename| ==> filename[j] != '.')
        && AsciiLower(filename[i + 1..]) in AllowedExtensions;
      var k := FindLast(filename, '.').value;
      assert k == i;
    }
  }

  /** A name built from a stem and a dot-free extension is accepted exactly
      when the extension is an image extension in some letter case; the
      stem, dots included, plays no part. */
  lemma AllowedFileByExtension(stem: string, ext: string)
    requires '.' !in ext
    ensures AllowedFile(stem + "." + ext) <==> AsciiLower(ext) in AllowedExtensions
  {
    var name := stem + "." + ext;
    assert name[|stem|] == '.';
    assert forall j :: |stem| < j < |name| ==> name[j] == ext[j - |stem| - 1];
    assert FindLast(name, '.') == Some(|stem|);
    assert name[|stem| + 1..] == ext;
  }

  /** The cases the filter is easiest to get wrong: a trailing dot, a bare
      extension without a dot, upper-case extensions, a double extension
      and a name that is only an extension. */
  lemma AllowedFileExamples()
    ensures !AllowedFile("a.")
    ensures !AllowedFile("png")
    ensures AllowedFile("cover.JPG")
    ensures !AllowedFile("cover.png.exe")
    ensures AllowedFile("archive.tar.gif")
    ensures AllowedFile(".png")
  {
    TrailingDotRejected();
    BareExtensionRejected();
    UpperCaseAccepted();
    DoubleExtensionRejected();
    LastExtensionAccepted();
    DotFileAccepted();
  }

  lemma TrailingDotRejected()
    ensures !AllowedFile("a.")
  {
    assert "a." == "a" + "." + "";
    AllowedFileByExtension("a", "");
  }

  lemma BareExtensionRejected()
    ensures !AllowedFile("png")
  {
    assert '.' !in "png";
  }

  lemma UpperCaseAccepted()
    ensures AllowedFile("cover.JPG")
  {
    assert "cover.JPG" == "cover" + "." + "JPG";
    AllowedFileByExtension("cover", "JPG");
    assert AsciiLower("JPG") == "jpg";
  }

  lemma DoubleExtensionRejected()
    ensures !AllowedFile("cover.png.exe")
  {
    assert "cover.png.exe" == "cover.png" + "." + "exe";
    AllowedFileByExtension("cover.png", "exe");
    assert AsciiLower("exe") == "exe";
  }

  lemma LastExtensionAccepted()
    ensures AllowedFile("archive.tar.gif")
  {
    assert "archive.tar.gif" == "archive.tar" + "." + "gif";
    AllowedFileByExtension("archive.tar", "gif");
    assert AsciiLower("gif") == "gif";
  }

  lemma DotFileAccepted()
    ensures AllowedFile(".png")
  {
    assert ".png" == "" + "." + "png";
    AllowedFileByExtension("", "png");
    assert AsciiLower("png") == "png";
  }
}

=== FILE: wrappers.dfy ===
/** The optional and the success-or-error values shared by the lookup and
    backup models. */
module Wrappers {

  /** A value that may be absent: a provider that contributed nothing, a
      search that found no match. */
  datatype Option<+T> = None | Some(value: T)

  /** The outcome of an operation that raises an exception on failure in the
      Python code. */
  datatype Result<+R, +E> = Success(value: R) | Failure(error: E)
}
